=== FILE: README.md ===
# Escrow program model

A Dafny model of the blueshift escrow, a Solana program for two-party token
swaps written with pinocchio. It has three instructions:

- **Make**: a maker opens an escrow. The program creates a record account at an address derived from the maker and a seed. It creates a vault, the escrow's associated token account for mint A. It records what the maker wants in return, `receive` units of mint B, and moves `amount` of mint A from the maker into the vault.
- **Take**: a taker settles the escrow. They pay `receive` of mint B to the maker and receive the whole vault. The vault's lamports go to the maker. The record account is decommissioned, and its lamports go to the taker.
- **Refund**: the maker cancels the escrow. The vault's tokens go back to the maker's mint-A account. The vault and the record account are closed, and their lamports go to the maker.

The model covers four parts of the program:

- the account checks and the "check, else create" helpers (`src/helpers.rs`);
- each instruction's account validation, account creation and processing (`src/instructions/*.rs`);
- the entry point that selects the instruction by its first data byte (`src/lib.rs`);
- the collaborator programs the escrow calls: the system program, the classic token program and the associated-token-account program. Each is reduced to its effect on the ledger and the conditions under which it fails.

## How the model is built

- **The ledger.** The chain is a `Ledger`, a map from `Address` to `Account`. An address that is not in the map holds `EMPTY`: a system-owned account with no lamports and no data.
- **Accounts.** An account has an owner, lamports, raw data, and two decoded parts:
  - `holding`: the token-account state (mint, authority, amount);
  - `record`: the escrow record (seed, maker, mints, receive, bump).
  The checks read only the data length and single discriminator bytes, as the code does.
- **Instructions.** An instruction receives its account list as a sequence of `Meta`s, each a key plus a signer flag. Every check re-reads the live account, so two slots that name the same account behave as they do on chain.
- **Outside services.** Address derivation (`find_program_address`, `create_program_address`) and the rent minimum are functions inside an `Env` value. Lemmas that need derivation to be collision-free say so, and only for the two fixed-width seed layouts the program uses. `EscrowDerivationInjective` covers `create_program_address` on escrow signer seeds ("escrow", maker, 8-byte seed, 1-byte bump). `AtaDerivationInjective` covers `find_program_address` on associated-account seeds (three 32-byte keys). Both are the usual idealisation of the hash as injective, and are strictly stronger than collision resistance. There are 2^328 escrow signer-seed lists and 2^768 associated-account seed lists but only 2^256 addresses, so by counting the real derivations cannot be injective on either. Collision resistance only makes a colliding pair infeasible to find. Each proof applies the assumption to one pair of seed lists taken from the instruction at hand. So a run that contradicted a lemma would exhibit such a collision. In `Lifecycle.RefundOnlyByMaker`, the pair is the supplied maker's signer seeds and the recorded maker's. In `Lifecycle.TakeNamesRecordedMaker`, it is the maker slot's seeds and the record's. In `MakeIx.MakeUsesClassicToken`, it is the vault's associated seeds under the named token program and under the classic one. In `TakeIx.TakeCorrectedRefusesSelfPayment`, it is the taker's and the maker's mint-B seeds. Neither predicate says anything about seed lists of other shapes, which do collide when their bytes concatenate alike.
- **Results and rollback.** Every operation returns `Result<Ledger>`, and an error aborts the instruction. `Entrypoint.Transact` keeps the original ledger whenever the instruction fails, which models the runtime rolling back a failed transaction.

### Modules

| module | file | contents |
|---|---|---|
| `Types` | `types.dfy` | well-known addresses, error codes, `Result`/`Outcome`/`Option` |
| `Bytes` | `bytes.dfy` | little-endian `u64` encoding |
| `Ledger` | `ledger.dfy` | accounts, ledger, seeds, derived addresses, escrow record store/load |
| `Cpi` | `cpi.dfy` | the collaborator programs |
| `Checks` | `checks.dfy` | the account checks, and `FirstFailure` (checks run in order, first failure reported) |
| `Capabilities` | `capabilities.dfy` | `init`, `init_if_needed` and `close` helpers |
| `MakeIx`, `TakeIx`, `RefundIx` | `make.dfy`, `take.dfy`, `refund.dfy` | the three instructions |
| `Entrypoint` | `entrypoint.dfy` | decoding and dispatch |
| `Lifecycle` | `lifecycle.dfy` | properties that span instructions |

### What the main results say

- **Records stay bound, with one gap in Make.** `EscrowsBound` says that every program-owned record sits at the address its own maker, seed and bump derive. Take and Refund always keep it true. Make never compares the escrow with its derived address: it only needs the escrow to sign the account creation, and an ordinary keypair escrow can sign for itself. So Make keeps every record bound only when the escrow did not sign the transaction (`Lifecycle.MakeKeepsEscrowsBound`). The maker lemmas below therefore require only that the one escrow they name is bound (`Lifecycle.EscrowBoundAt`), not the whole ledger.
- **Only the maker can refund, even though Refund re-derives nothing.** The token program demands the escrow's signature on the vault. Under a collision-free escrow derivation, that signature can only come from seeds built with the recorded maker. So when the named escrow is bound, a successful Refund was signed by exactly the recorded maker (`Lifecycle.RefundOnlyByMaker`).
- **Settled at most once.** A settled escrow is `EMPTY`, so any later Take, in either form, or Refund naming it fails its custodial check.
- **Two bugs in Take (see Findings).** The entry point dispatches all three instructions as written, Take included (`TakeIx.TakeInstruction`), and the model proves what goes wrong with that Take. The corrected Take (`TakeIx.TakeInstructionCorrected`) sits beside it, with the intended properties proved.
- **Token-2022 init helpers always fail.** `Mint2022Account::init` and `TokenAccount2022Account::init` create a Token-2022-owned account and then send the classic token program's initialise instruction to it. The model shows that, as written, this always fails. No instruction uses these helpers.

## Model

| member | source | states |
|---|---|---|
| Bytes.U64RoundTrip | src/instructions/make.rs:85-87 | decoding the eight little-endian bytes of a `u64` gives that `u64` back |
| Bytes.U64ToLeInjective | src/instructions/take.rs:102 | distinct seeds have distinct 8-byte encodings; `Ledger.SignerSeedsDetermineEscrow` uses it to recover the seed from the escrow's signer seeds |
| Bytes.FromLeToLe | src/instructions/make.rs:85-87 | reading back the n little-endian bytes of a number below 256^n gives the number |
| Bytes.ToLeFromLe | src/instructions/make.rs:85-87 | re-encoding the value of a byte string at its own length gives the string |
| Ledger.AtaAddressInjective | src/helpers.rs:386-395 | under a collision-free associated-account derivation, the associated address for one token program and mint determines the wallet |
| Ledger.SignerSeedsDetermineEscrow | src/instructions/take.rs:98-106 | the escrow's signer seeds determine the maker, the seed and the bump they were built from |
| Ledger.StoreEscrow | src/instructions/make.rs:153-163 | writing the record succeeds exactly on a record-sized account, and changes only that account's record |
| Ledger.LoadEscrow | src/instructions/take.rs:96-97 | loading succeeds exactly on a record-sized account carrying a record, and returns that record |
| Cpi.CpiSigners | src/instructions/take.rs:111-119 | a signed call may be authorised by the transaction's signers plus exactly the address the signer seeds derive; without seeds, only by the signers |
| Cpi.CreateProgramAddress | src/instructions/take.rs:98-106 | succeeds exactly when the seeds derive an address, and returns it; otherwise fails with InvalidSeeds |
| Cpi.TokenAmountOf | src/instructions/take.rs:120-121 | reading the vault's balance succeeds exactly on a holding-sized account owned by the classic token program, and returns its amount |
| Cpi.SystemTransfer | src/instructions/make.rs:126-133 | a lamport transfer succeeds exactly when the source signed, is an unused system account and has the funds; it then moves exactly that many lamports |
| Cpi.SystemAllocateAssign | src/instructions/make.rs:126-133 | allocation succeeds exactly on a signing, unused system account; that account becomes zeroed data of the given size under the new owner, with its lamports kept |
| Cpi.SystemCreateAccount | src/helpers.rs:543-550 | creation needs both signatures and an unused, unfunded target; the target becomes exactly the new account; a distinct payer loses exactly the lamports; nothing else changes and no record appears |
| Cpi.CreateWithMinimumBalance | src/instructions/make.rs:126-133 | the new account was unused and signed for; it is owned by the given program, holds zeroed data of the given size, and holds at least the rent minimum; only payer and account change |
| Cpi.AtaCreate | src/helpers.rs:447-455 | the created account sits at the wallet's associated address for the token program and mint; it was unused, and now holds a zero balance of the mint for the wallet; only payer and account change |
| Cpi.TokenInitializeMint | src/helpers.rs:83-89 | initialising a mint succeeds only on a mint-sized account owned by the classic token program |
| Cpi.TokenInitializeAccount | src/helpers.rs:163-168 | initialising a holding needs a holding-sized classic account, and sets exactly its holding to a zero balance of the mint for the owner |
| Cpi.TokenTransfer | src/instructions/take.rs:123-129 | a transfer needs matching mints, the source's authority among the signers, and the funds; between distinct accounts it moves exactly `amount`; no other account, owner, lamport balance or record changes |
| Cpi.TokenCloseAccount | src/instructions/take.rs:130-135 | closing needs an empty holding whose authority signed, and a different destination; the account ceases to exist and its lamports reach the destination |
| Checks.SignerCheck | src/helpers.rs:13-18 | passes exactly on a signer, else MissingRequiredSignature |
| Checks.SystemCheck | src/helpers.rs:23-28 | passes exactly on a system-owned account, else IllegalOwner |
| Checks.MintCheck | src/helpers.rs:33-41 | passes exactly on a mint-sized classic-token account; a wrong owner is reported before a wrong size |
| Checks.TokenAccountCheck | src/helpers.rs:116-127 | passes exactly on a holding-sized classic-token account; a wrong owner is reported before a wrong size |
| Checks.Mint2022Check | src/helpers.rs:193-207 | passes exactly on a Token-2022 account that is mint-sized or carries the mint tag at offset 165 |
| Checks.TokenAccount2022Check | src/helpers.rs:259-275 | passes exactly on a Token-2022 account that is holding-sized or carries the holding tag at offset 165 |
| Checks.MintInterfaceCheck | src/helpers.rs:318-339 | passes exactly on a mint-sized classic mint, or on a Token-2022 account with the mint tag past offset 165 |
| Checks.TokenAccountInterfaceCheck | src/helpers.rs:343-366 | passes exactly on a holding-sized classic account, or on a Token-2022 account with the holding tag past offset 165 |
| Checks.AtaCheck | src/helpers.rs:379-400 | passes exactly on a classic holding account at the authority's associated address; a failed holding check is reported as is, and a wrong address as InvalidArgument |
| Checks.ProgramAccountCheck | src/helpers.rs:515-523 | passes exactly on a record-sized account owned by this program; a wrong owner is InvalidAccountOwner, a wrong size InvalidAccountData |
| Checks.FirstFailure | src/instructions/take.rs:44-49 | checks run in order: the result passes exactly when every check passes, and otherwise is the first failing check |
| Checks.InterfaceMatchesClassic | src/helpers.rs:318-339 | on classic-owned accounts the interface checks decide exactly as the classic checks |
| Checks.InterfaceNarrowerOn2022 | src/helpers.rs:193-207 | on Token-2022 accounts the interface checks accept a subset of what the dedicated checks accept, and the difference is exactly the accounts of classic length |
| Checks.MintAndHoldingDisjoint | src/helpers.rs:33-41 | no account passes both a mint check and a holding check of the same family |
| Capabilities.MintInit | src/helpers.rs:65-90 | a created mint passes the mint check |
| Capabilities.MintInitIfNeeded | src/helpers.rs:91-111 | on success the account passes the mint check |
| Capabilities.MintInitIfNeededIdempotent | src/helpers.rs:91-111 | a second `init_if_needed` after a successful one changes nothing |
| Capabilities.TokenAccountInit | src/helpers.rs:146-169 | a created holding passes the holding check and holds a zero balance of the mint for the owner |
| Capabilities.TokenAccountInitIfNeeded | src/helpers.rs:170-181 | on success the account passes the holding check |
| Capabilities.TokenAccountInitIfNeededIdempotent | src/helpers.rs:170-181 | a second `init_if_needed` after a successful one changes nothing |
| Capabilities.Mint2022Init | src/helpers.rs:210-235 | as written it always fails: the classic token program cannot initialise an account the Token-2022 program owns |
| Capabilities.Mint2022InitIfNeeded | src/helpers.rs:236-255 | succeeds exactly on accounts that already pass the Token-2022 mint check, and then changes nothing |
| Capabilities.TokenAccount2022Init | src/helpers.rs:290-313 | as written it always fails, for the same reason as the mint |
| Capabilities.TokenAccount2022InitIfNeeded | src/helpers.rs:278-289 | succeeds exactly on accounts that already pass the Token-2022 holding check, and then changes nothing |
| Capabilities.AtaInit | src/helpers.rs:439-456 | a created account sits at the owner's associated address and holds a zero balance of the mint for the owner |
| Capabilities.AtaInitSigned | src/helpers.rs:470-488 | as `AtaInit`, and the signer seeds derive an address |
| Capabilities.AtaInitIfNeeded | src/helpers.rs:457-469 | the account is checked against the PAYER and left alone when that passes; any account it creates sits at the owner's address and was unused; only payer and account change, and the payer only in lamports; records are kept, and so are token balances when only program-owned accounts carry holdings |
| Capabilities.AtaInitIfNeededSigned | src/helpers.rs:489-510 | the same guarantees as `AtaInitIfNeeded` (payer-based check, unused target at the owner's address, two-account frame, lamport-only payer change, records kept, balances kept when only program-owned accounts carry holdings), and the signer seeds derive an address whenever an account is created |
| Capabilities.AtaInitIfNeededIdempotent | src/helpers.rs:457-469 | when payer and owner coincide AND the classic token program is named, a second call after a successful one passes the check and changes nothing |
| Capabilities.AtaInitIfNeededNotIdempotentOn2022 | src/helpers.rs:465-468 | with the Token-2022 program named, a second call after one that created the account fails with IllegalOwner: the classic holding check rejects the Token-2022 account and Create refuses an existing one; so the wrapper is idempotent only under the classic program |
| Capabilities.AtaInitIfNeededRejectsExistingForOtherOwner | src/helpers.rs:465-468 | when payer and owner differ, an account the owner already holds fails the check, is sent to Create again, and the call fails; with genuine system and token program slots the error is IllegalOwner |
| Capabilities.AtaInitIfNeededForOwner | src/helpers.rs:457-469 | corrected wrapper: the account is checked against the OWNER; whichever way it succeeds, the account sits at the owner's associated address; same frame as the original |
| Capabilities.AtaInitIfNeededForOwnerIdempotent | src/helpers.rs:457-469 | the corrected wrapper is idempotent whoever pays |
| Capabilities.ProgramAccountInit | src/helpers.rs:535-552 | the created account signed the transaction or is the address the seeds derive, and it passes the custodial check exactly when its size is the record size |
| Capabilities.ProgramAccountClose | src/helpers.rs:558-567 | decommissioning fails only on an account without data; the account becomes `EMPTY`, its lamports reach the destination, nothing else changes, and no record is forged |
| Capabilities.DecommissionedFailsCheck | src/helpers.rs:558-567 | the tombstone destroys the record; a shrunk account fails the custodial check on size, and a closed one on owner |
| MakeIx.MakeAccountsFrom | src/instructions/make.rs:20-70 | fewer or more than nine accounts fail with NotEnoughAccountKeys; otherwise the result is the first failure among, in order: unsigned maker (IllegalOwner), mint A, mint B, the maker's mint-A account check, a vault off the escrow's derived address (InvalidAccountOwner), a vault with data (AccountAlreadyInitialized); success holds exactly when the account conditions hold |
| MakeIx.ParseMakeData | src/instructions/make.rs:81-96 | the payload parses exactly when it is 24 bytes with a non-zero amount; a parsed payload re-encodes to the input |
| MakeIx.MakeDataRoundTrip | src/instructions/make.rs:81-96 | encoding then parsing returns the data when the amount is non-zero, and InvalidInstructionData when it is zero |
| MakeIx.MakeTryFrom | src/instructions/make.rs:104-147 | account errors come first, then payload errors; on success the bump is the one derived for maker and seed, and no record is forged |
| MakeIx.MakeInstruction | src/instructions/make.rs:106-108 | account-list and payload failures are reported before any effect |
| MakeIx.MakeSetupEffects | src/instructions/make.rs:104-147 | after setup, the escrow is a record-sized account owned by the program; the vault holds a zero balance of mint A for the escrow; the maker's mint-A account is untouched; the escrow sits at the derived address unless it signed the transaction itself |
| MakeIx.MakeProcessEffects | src/instructions/make.rs:150-172 | processing among distinct escrow, vault and maker's account writes exactly the record, moves `amount` from the maker's account into the vault's empty holding, and changes nothing else |
| MakeIx.MakeEffects | src/instructions/make.rs:150-172 | a successful Make stores the record of maker, mints, seed, receive and bump; the vault holds exactly `amount` of mint A for the escrow; the maker's account loses `amount`; nothing outside maker, escrow, vault and maker's account changes |
| MakeIx.MakeUsesClassicToken | src/instructions/make.rs:45-55 | under a collision-free associated-account derivation, a successful Make named the classic token program |
| TakeIx.TakeAccountsFrom | src/instructions/take.rs:24-63 | twelve accounts, or NotEnoughAccountKeys; otherwise the result is the first of the six checks that fails; on success the taker signed, the escrow is a program account, and the vault and taker's mint-B account sit at their associated addresses |
| TakeIx.TakeTryFrom | src/instructions/take.rs:69-91 | validation errors pass through; only taker, taker's mint-A account and maker's mint-B account can change; a mint-A account it creates is the taker's associated account with a zero holding for the taker, and a mint-B account it creates is the maker's associated account with a zero holding for the maker; records are kept, and token balances too when only program-owned accounts carry holdings |
| TakeIx.Authenticate | src/instructions/take.rs:96-109 | a missing record is InvalidAccountData; seeds deriving nothing are InvalidSeeds; a derived address other than the escrow is InvalidAccountOwner; on success the escrow is the address the supplied maker's seeds derive |
| TakeIx.TakeSettle | src/instructions/take.rs:111-146 | settlement forges no record and leaves the escrow `EMPTY` |
| TakeIx.TakeProcess | src/instructions/take.rs:95-147 | authentication failures pass through; success leaves the escrow `EMPTY` and forges no record |
| TakeIx.TakeInstruction | src/lib.rs:24 | Take as written: validation failures pass through; success leaves the escrow `EMPTY` and forges no record |
| TakeIx.TakeSettleEffects | src/instructions/take.rs:120-146 | among distinct accounts: the vault's balance reaches the taker's mint-A account; `receive` of B moves from taker to maker; vault and escrow cease to exist; the maker gains the vault's lamports |
| TakeIx.TakeEffects | src/instructions/take.rs:69-147 | a successful as-written Take among distinct accounts moves every balance as settlement states, measured against the ledger before the instruction; the maker gains the vault's lamports and the taker at least the escrow's; nothing outside the seven parties changes |
| TakeIx.TakeRejectsForeignEscrow | src/instructions/take.rs:98-109 | an escrow whose seeds, built with the supplied maker, derive another address is refused with InvalidAccountOwner |
| TakeIx.TakeFailsWhenMakerAccountExists | src/instructions/take.rs:81-88 | as written, Take fails whenever the maker already holds their mint-B associated account |
| TakeIx.TakeAdmitsSelfPayment | src/instructions/take.rs:81-88 | as written, when the maker's mint-B slot names the taker's own mint-B account, account setup passes without creating anything |
| TakeIx.TakeSettleSelfPayment | src/instructions/take.rs:136-142 | in that case the B transfer is a transfer to oneself: the taker's B balance is unchanged while the vault is still paid out |
| TakeIx.TakeSelfPayment | src/instructions/take.rs:69-147 | a successful as-written self-paying Take: the taker gains the vault, pays nothing, and the maker receives no token |
| TakeIx.TakeTryFromCorrected | src/instructions/take.rs:69-91 | corrected setup: the maker's mint-B account is the maker's associated address for the supplied mint B |
| TakeIx.TakeProcessCorrected | src/instructions/take.rs:95-147 | corrected processing: supplied mints other than the recorded ones are refused with InvalidAccountData before any token moves |
| TakeIx.TakeInstructionCorrected | src/instructions/take.rs:69-147 | corrected Take (both Findings rows): validation failures pass through; success leaves the escrow `EMPTY` and forges no record |
| TakeIx.TakeCorrectedRefusesSelfPayment | src/instructions/take.rs:81-88 | under a collision-free associated-account derivation, the corrected Take refuses a maker's mint-B slot naming the taker's account |
| TakeIx.TakeCorrectedPaysMaker | src/instructions/take.rs:95-147 | a successful corrected Take pays exactly `receive` into the maker's associated account for the RECORDED mint B, and the vault's balance into the taker's account for the recorded mint A |
| TakeIx.TakeSettleIgnoresRecord | src/instructions/take.rs:111-146 | settlement reads only the record's `receive`: ledgers that differ only in the escrow's record settle alike |
| TakeIx.TakeProcessIgnoresRecordedMints | src/instructions/take.rs:95-147 | as written, relabelling the recorded mints leaves Take's processing exactly as it was |
| TakeIx.TakeSettlesInUnrecordedMint | src/instructions/take.rs:136-142 | any successful as-written Take still succeeds after its record's mint B is relabelled to another mint, while the corrected processing refuses it |
| RefundIx.RefundAccountsFrom | src/instructions/refund.rs:20-51 | eight accounts, or NotEnoughAccountKeys; otherwise the result is the first of the four checks that fails; nothing ties the signer to the record |
| RefundIx.RefundTryFrom | src/instructions/refund.rs:57-73 | only maker and maker's mint-A account can change; a mint-A account it creates is the maker's associated account with a zero holding for the maker; records are kept, and token balances too when only program-owned accounts carry holdings |
| RefundIx.RefundProcess | src/instructions/refund.rs:77-112 | a missing record is InvalidAccountData; success leaves the escrow `EMPTY` and forges no record |
| RefundIx.RefundInstruction | src/lib.rs:25 | validation failures pass through; success leaves the escrow `EMPTY` and forges no record |
| RefundIx.RefundProcessEffects | src/instructions/refund.rs:77-112 | among distinct accounts: the vault's balance returns to the maker; vault and escrow cease to exist with their lamports going to the maker; the escrow's authority came from its own signature or from seeds built with the supplied maker |
| RefundIx.RefundEffects | src/instructions/refund.rs:57-112 | the same effects as `RefundProcessEffects`, measured against the ledger before the instruction |
| Entrypoint.Decode | src/lib.rs:22-26 | decoding succeeds exactly on a known first byte; Make keeps the rest as its payload |
| Entrypoint.DecodeEncode | src/lib.rs:22-26 | every instruction decodes from its encoding |
| Entrypoint.EncodeDecode | src/lib.rs:22-26 | decoding then encoding gives back the input, up to the ignored bytes after a Take or Refund tag |
| Entrypoint.ProcessInstruction | src/lib.rs:17-28 | empty data or an unknown tag fail with InvalidInstructionData; tags 0, 1 and 2 run Make on the rest, Take and Refund, each as written |
| Entrypoint.Transact | src/lib.rs:17-28 | only Make can write a record: after any other instruction every record is one the ledger already held, under the same owner; a failing instruction leaves the ledger unchanged |
| Lifecycle.RecordsKeptKeepsBound | src/helpers.rs:558-567 | steps that only erase records keep every record bound |
| Lifecycle.MakeKeepsEscrowsBound | src/instructions/make.rs:109-133 | a Make whose escrow did not sign the transaction binds the record it writes to the escrow's derived address, so every record stays bound |
| Lifecycle.SettlementKeepsEscrowsBound | src/instructions/take.rs:144-145 | Take in either form, and Refund, keep every record bound |
| Lifecycle.TransactKeepsEscrowsBound | src/lib.rs:17-28 | every transaction keeps every record bound, provided a Make's escrow did not sign it |
| Lifecycle.RefundOnlyByMaker | src/instructions/refund.rs:81-99 | when the named escrow is bound and escrow derivation is collision-free, a successful Refund whose escrow did not sign was signed by exactly the maker its record names |
| Lifecycle.TakeNamesRecordedMaker | src/instructions/take.rs:98-109 | when the named escrow is bound and escrow derivation is collision-free, a successful Take names the recorded maker in its maker slot |
| Lifecycle.TakeCorrectedPaysRecordedMaker | src/instructions/take.rs:136-142 | when the named escrow is bound, the corrected Take pays exactly `receive` into the recorded maker's associated account for the recorded mint B |
| Lifecycle.ClosedEscrowRefused | src/helpers.rs:515-523 | Take, in either form, and Refund naming an `EMPTY` escrow fail |
| Lifecycle.EmptyEscrowRefused | src/helpers.rs:515-523 | on a ledger where an address holds no account, every Take naming it fails and, separately, every Refund naming it fails |
| Lifecycle.SettledAtMostOnce | src/instructions/refund.rs:108-110 | after a successful Take (as written or corrected) or Refund, every later Take, in either form, and every later Refund naming the same escrow fails |

## Left out

- The rent sysvar account is not modelled. The rent minimum for a data size is the function `env.rent`, and no "sysvar missing" error is modelled.
- Mint decimals, mint and freeze authorities, delegates, frozen accounts and native-SOL token accounts are not modelled. The escrow never uses them.
- Borrow failures (`try_borrow`, `try_borrow_mut`) are not modelled. In this single-threaded model no account is ever borrowed twice.
- The byte layout of the escrow record is not modelled, because `src/state.rs` is not part of this model. The record is abstract, and its length is taken as 113 bytes (8 + 32 + 32 + 32 + 8 + 1).
- The collaborator programs' custom error numbers are plausible stand-ins, not the exact codes. The escrow's own error codes are exact.
- Lamports are unbounded naturals. The `u64` overflow of `destination.lamports() + account.lamports()` in `ProgramAccount::close` is not modelled.
- Token-2022 holdings made by the associated-token-account program are given abstract data. Only the classic account's length (165) is exact.
- The associated-token-account program's own rent top-up is modelled as pinocchio's minimum-balance creation. Its exact arithmetic is not modelled.
- An account whose bytes hold no decoded holding reads as a balance of 0.
- The trailing, unread account slot of each instruction is only counted, never inspected.
- Cpi.SystemTransfer: the runtime's refusal to debit an account the system program does not own is reported as InvalidArgument, the same error the system program gives for a source that carries data.
- RefundIx.RefundEffects: the maker's lamports are stated as at least the vault's and the escrow's lamports, not as an exact sum. Creating the maker's mint-A account may spend some of the maker's lamports first.
- TakeIx.TakeEffects: stated only when the seven parties are distinct accounts and only program-owned accounts carry holdings. The aliasing case the code allows is covered separately by `TakeIx.TakeSelfPayment`. The taker's lamports are stated as at least the escrow's lamports, not as an exact sum, because creating the maker's mint-B account may first cost the taker rent; the exact sum against the ledger after setup is in `TakeIx.TakeSettleEffects`.
- Lifecycle.MakeKeepsEscrowsBound: holds only when the escrow account did not sign the transaction itself. Make never requires the escrow to sit at its program-derived address, so an escrow that signs with its own key can carry a record at any address; the lemma cannot promise more.

## Findings

| source | as written | input that shows it | evidently intended | confidence | as-written member | corrected member |
|---|---|---|---|---|---|---|
| src/helpers.rs:465 | `init_if_needed` checks the account as the associated account of the payer, not of the owner it creates it for | A Take whose maker's mint-B slot (slot 8) names the taker's own mint-B account (slot 7). The check passes, nothing is created, and the B "payment" is a transfer to oneself. The taker receives the vault while the maker receives nothing. The same check also makes Take fail whenever the maker already holds their mint-B account. | check against `owner`, so the maker's mint-B slot must be the maker's associated account | high; not executed | TakeIx.TakeSelfPayment | TakeIx.TakeCorrectedRefusesSelfPayment |
| src/instructions/take.rs:95-142 | Take never compares the supplied `mint_a` and `mint_b` with the mints the escrow records | Any successful Take, with the escrow's recorded mint B relabelled to another mint. Take still succeeds, so the taker pays in a mint of their choosing. | refuse supplied mints that differ from the recorded ones | high; not executed | TakeIx.TakeSettlesInUnrecordedMint | TakeIx.TakeCorrectedPaysMaker |

The entry point dispatches Take as written, as `src/lib.rs:24` does. The corrected Take, `TakeIx.TakeInstructionCorrected`, uses the owner-based `Capabilities.AtaInitIfNeededForOwner` and `TakeIx.TakeProcessCorrected`; the properties the findings call for are proved about it, and `Lifecycle.SettledAtMostOnce` and `Lifecycle.SettlementKeepsEscrowsBound` cover it as well.

=== FILE: bytes.dfy ===
/** Little-endian byte encoding of unsigned integers, as Rust's
    `u64::from_le_bytes` / `u64::to_le_bytes` do it. */
module Bytes {
  import opened Types

  /** 256 to the power `n`: the number of values `n` bytes can hold. */
  function Pow256(n: nat): (r: nat)
    ensures r > 0
  {
    if n == 0 then 1 else 0x100 * Pow256(n - 1)
  }

  /** The unsigned value of the bytes `b`, least significant byte first. */
  function FromLe(b: seq<u8>): (r: nat)
    ensures r < Pow256(|b|)
  {
    if |b| == 0 then 0 else b[0] + 0x100 * FromLe(b[1..])
  }

  /** The `n` least significant bytes of `x`, least significant first. */
  function ToLe(x: nat, n: nat): (r: seq<u8>)
    ensures |r| == n
  {
    if n == 0 then [] else [x % 0x100] + ToLe(x / 0x100, n - 1)
  }

  /** Encoding a value that fits in `n` bytes and decoding it gives it back. */
  lemma {:induction false} FromLeToLe(x: nat, n: nat)
    requires x < Pow256(n)
    ensures FromLe(ToLe(x, n)) == x
  {
    if n > 0 {
      var b := ToLe(x, n);
      assert b[1..] == ToLe(x / 0x100, n - 1);
      FromLeToLe(x / 0x100, n - 1);
    }
  }

  /** Decoding bytes and encoding the value at the same width gives the bytes back. */
  lemma {:induction false} ToLeFromLe(b: seq<u8>)
    ensures ToLe(FromLe(b), |b|) == b
  {
    if |b| > 0 {
      var x := FromLe(b);
      assert x % 0x100 == b[0];
      assert x / 0x100 == FromLe(b[1..]);
      ToLeFromLe(b[1..]);
    }
  }

  lemma Pow256Of8()
    ensures Pow256(8) == 0x1_0000_0000_0000_0000
  {
    calc {
      Pow256(8);
      0x100 * 0x100 * 0x100 * 0x100 * 0x100 * 0x100 * 0x100 * 0x100 * Pow256(0);
    }
  }

  /** `u64::from_le_bytes` on an eight-byte slice. */
  function U64FromLe(b: seq<u8>): (r: u64)
    requires |b| == 8
    ensures U64ToLe(r) == b
  {
    Pow256Of8();
    ToLeFromLe(b);
    FromLe(b)
  }

  /** `u64::to_le_bytes`. */
  function U64ToLe(x: u64): (r: seq<u8>)
    ensures |r| == 8
  {
    ToLe(x, 8)
  }

  /** The eight-byte encoding of a `u64` decodes back to it. */
  lemma U64RoundTrip(x: u64)
    ensures U64FromLe(U64ToLe(x)) == x
  {
    Pow256Of8();
    FromLeToLe(x, 8);
  }

  /** Distinct values have distinct encodings. */
  lemma U64ToLeInjective(x: u64, y: u64)
    requires U64ToLe(x) == U64ToLe(y)
    ensures x == y
  {
    U64RoundTrip(x);
    U64RoundTrip(y);
  }
}

=== FILE: capabilities.dfy ===
/** The creatable account kinds: their `init` bodies as calls into the
    collaborator programs, the "check, else init" `init_if_needed` wrappers,
    and the decommissioning of the program's own custodial account. */
module Capabilities {
  import opened Types
  import opened Ledger
  import opened Cpi
  import opened Checks

  /** "Check, else init": the ledger is kept as it is when the check passes,
      and the outcome of `init` is taken exactly when it fails. */
  function InitIfNeeded(l: Ledger, check: Outcome, init: Result<Ledger>): (r: Result<Ledger>)
    ensures check.Pass? ==> r == Ok(l)
    ensures check.Fail? ==> r == init
  {
    match check
    case Pass => Ok(l)
    case Fail(_) => init
  }

  // ----- classic mint -----

  /** Create a classic-mint-sized account owned by the classic token program,
      funded by `payer`, then initialise it as a mint.  Neither the rent
      sysvar account nor the mint's decimals and authorities are modelled. */
  function MintInit(env: Env, l: Ledger, metas: seq<Meta>, account: Address, payer: Address): (r: Result<Ledger>)
    ensures r.Ok? ==> MintCheck(View(account, false, Get(r.value, account))).Pass?
  {
    var l1 :- SystemCreateAccount(l, TxSigners(metas), payer, account, env.rent(MINT_LEN), MINT_LEN, TOKEN_PROGRAM);
    TokenInitializeMint(l1, account)
  }

  function MintInitIfNeeded(env: Env, l: Ledger, metas: seq<Meta>, account: Meta, payer: Address): (r: Result<Ledger>)
    ensures r.Ok? ==> MintCheck(ViewOf(r.value, account)).Pass?
  {
    InitIfNeeded(l, MintCheck(ViewOf(l, account)), MintInit(env, l, metas, account.key, payer))
  }

  /** A second `init_if_needed` after a successful one changes nothing. */
  lemma MintInitIfNeededIdempotent(env: Env, l: Ledger, metas: seq<Meta>, account: Meta, payer: Address)
    requires MintInitIfNeeded(env, l, metas, account, payer).Ok?
    ensures var l1 := MintInitIfNeeded(env, l, metas, account, payer).value;
      MintInitIfNeeded(env, l1, metas, account, payer) == Ok(l1)
  {
  }

  // ----- classic holding account -----

  /** Create a classic-holding-sized account owned by the classic token program,
      funded by `payer`, then initialise it as a holding of `mint` for `owner`. */
  function TokenAccountInit(env: Env, l: Ledger, metas: seq<Meta>, account: Address, mint: Address,
                            payer: Address, owner: Address): (r: Result<Ledger>)
    ensures r.Ok? ==> TokenAccountCheck(View(account, false, Get(r.value, account))).Pass?
    ensures r.Ok? ==> Get(r.value, account).holding == Some(Holding(mint, owner, 0))
  {
    var l1 :- SystemCreateAccount(l, TxSigners(metas), payer, account, env.rent(TOKEN_ACCOUNT_LEN),
                                  TOKEN_ACCOUNT_LEN, TOKEN_PROGRAM);
    TokenInitializeAccount(l1, account, mint, owner)
  }

  function TokenAccountInitIfNeeded(env: Env, l: Ledger, metas: seq<Meta>, account: Meta, mint: Address,
                                    payer: Address, owner: Address): (r: Result<Ledger>)
    ensures r.Ok? ==> TokenAccountCheck(ViewOf(r.value, account)).Pass?
  {
    InitIfNeeded(l, TokenAccountCheck(ViewOf(l, account)), TokenAccountInit(env, l, metas, account.key, mint, payer, owner))
  }

  lemma TokenAccountInitIfNeededIdempotent(env: Env, l: Ledger, metas: seq<Meta>, account: Meta, mint: Address,
                                           payer: Address, owner: Address)
    requires TokenAccountInitIfNeeded(env, l, metas, account, mint, payer, owner).Ok?
    ensures var l1 := TokenAccountInitIfNeeded(env, l, metas, account, mint, payer, owner).value;
      TokenAccountInitIfNeeded(env, l1, metas, account, mint, payer, owner) == Ok(l1)
  {
  }

  // ----- Token-2022 mint and holding account -----

  /** Create a classic-mint-sized account owned by the Token-2022 program, then
      initialise it through the classic token program's InitializeMint2, which
      is the instruction the code issues. */
  function Mint2022Init(env: Env, l: Ledger, metas: seq<Meta>, account: Address, payer: Address): (r: Result<Ledger>)
    ensures r.Err?
  {
    var l1 :- SystemCreateAccount(l, TxSigners(metas), payer, account, env.rent(MINT_LEN), MINT_LEN, TOKEN_2022_PROGRAM);
    TokenInitializeMint(l1, account)
  }

  /** Succeeds only on an account that already passes the Token-2022 mint check,
      and then leaves the ledger as it was. */
  function Mint2022InitIfNeeded(env: Env, l: Ledger, metas: seq<Meta>, account: Meta, payer: Address): (r: Result<Ledger>)
    ensures r.Ok? <==> Mint2022Check(ViewOf(l, account)).Pass?
    ensures r.Ok? ==> r.value == l
  {
    InitIfNeeded(l, Mint2022Check(ViewOf(l, account)), Mint2022Init(env, l, metas, account.key, payer))
  }

  /** Create a classic-holding-sized account owned by the Token-2022 program,
      then initialise it through the classic token program's InitializeAccount3,
      which is the instruction the code issues. */
  function TokenAccount2022Init(env: Env, l: Ledger, metas: seq<Meta>, account: Address, mint: Address,
                                payer: Address, owner: Address): (r: Result<Ledger>)
    ensures r.Err?
  {
    var l1 :- SystemCreateAccount(l, TxSigners(metas), payer, account, env.rent(TOKEN_ACCOUNT_LEN),
                                  TOKEN_ACCOUNT_LEN, TOKEN_2022_PROGRAM);
    TokenInitializeAccount(l1, account, mint, owner)
  }

  function TokenAccount2022InitIfNeeded(env: Env, l: Ledger, metas: seq<Meta>, account: Meta, mint: Address,
                                        payer: Address, owner: Address): (r: Result<Ledger>)
    ensures r.Ok? <==> TokenAccount2022Check(ViewOf(l, account)).Pass?
    ensures r.Ok? ==> r.value == l
  {
    InitIfNeeded(l, TokenAccount2022Check(ViewOf(l, account)),
                 TokenAccount2022Init(env, l, metas, account.key, mint, payer, owner))
  }

  // ----- associated token account -----

  /** The associated-token-account program's Create for (owner, token program,
      mint), funded by `payer`, with the transaction's signers. */
  function AtaInit(env: Env, l: Ledger, metas: seq<Meta>, account: Meta, mint: Meta, payer: Meta,
                   owner: Meta, systemProgram: Meta, tokenProgram: Meta): (r: Result<Ledger>)
    ensures r.Ok? ==> account.key == AtaAddress(env, owner.key, tokenProgram.key, mint.key)
    ensures r.Ok? ==> Get(r.value, account.key).holding == Some(Holding(mint.key, owner.key, 0))
  {
    AtaCreate(env, l, TxSigners(metas), payer.key, account.key, owner.key, mint.key, systemProgram.key, tokenProgram.key)
  }

  /** As `AtaInit`, additionally signed by the program-derived address of `seeds`. */
  function AtaInitSigned(env: Env, l: Ledger, metas: seq<Meta>, account: Meta, mint: Meta, payer: Meta,
                         owner: Meta, systemProgram: Meta, tokenProgram: Meta, seeds: seq<Seed>): (r: Result<Ledger>)
    ensures r.Ok? ==> account.key == AtaAddress(env, owner.key, tokenProgram.key, mint.key)
    ensures r.Ok? ==> env.createPda(seeds, PROGRAM_ID).Some?
    ensures r.Ok? ==> Get(r.value, account.key).holding == Some(Holding(mint.key, owner.key, 0))
  {
    var signers :- CpiSigners(env, metas, Some(seeds));
    AtaCreate(env, l, signers, payer.key, account.key, owner.key, mint.key, systemProgram.key, tokenProgram.key)
  }

  /** The associated-account check applied with the PAYER as authority. */
  function AtaCheckForPayer(env: Env, l: Ledger, account: Meta, mint: Meta, payer: Meta, tokenProgram: Meta): Outcome {
    AtaCheck(env, ViewOf(l, account), ViewOf(l, payer), ViewOf(l, mint), ViewOf(l, tokenProgram))
  }

  /** Checks the account as the associated account of the payer — not of the
      owner it would create it for — and creates it only when that fails. */
  function AtaInitIfNeeded(env: Env, l: Ledger, metas: seq<Meta>, account: Meta, mint: Meta, payer: Meta,
                           owner: Meta, systemProgram: Meta, tokenProgram: Meta): (r: Result<Ledger>)
    ensures AtaCheckForPayer(env, l, account, mint, payer, tokenProgram).Pass? ==> r == Ok(l)
    ensures r.Ok? && r.value != l ==>
      account.key == AtaAddress(env, owner.key, tokenProgram.key, mint.key)
      && Unused(Get(l, account.key))
      && Get(r.value, account.key).holding == Some(Holding(mint.key, owner.key, 0))
    ensures r.Ok? ==> forall a :: a != payer.key && a != account.key ==> Get(r.value, a) == Get(l, a)
    ensures r.Ok? ==> RecordsKept(l, r.value)
    ensures r.Ok? && payer.key != account.key ==>
      Get(r.value, payer.key) == Get(l, payer.key).(lamports := Lamports(r.value, payer.key))
    ensures r.Ok? && HoldingsOwned(l) ==> HoldingsOwned(r.value) && forall x :: Amount(r.value, x) == Amount(l, x)
  {
    InitIfNeeded(l, AtaCheckForPayer(env, l, account, mint, payer, tokenProgram),
                 AtaInit(env, l, metas, account, mint, payer, owner, systemProgram, tokenProgram))
  }

  /** The associated-account check applied with the OWNER as authority. */
  function AtaCheckForOwner(env: Env, l: Ledger, account: Meta, mint: Meta, owner: Meta, tokenProgram: Meta): Outcome {
    AtaCheck(env, ViewOf(l, account), ViewOf(l, owner), ViewOf(l, mint), ViewOf(l, tokenProgram))
  }

  /** The evidently intended `init_if_needed` for associated accounts: the
      account is checked as the associated account of the owner it would be
      created for, and created only when that fails.  Whichever way it
      succeeds, the account sits at the owner's associated address. */
  function AtaInitIfNeededForOwner(env: Env, l: Ledger, metas: seq<Meta>, account: Meta, mint: Meta, payer: Meta,
                                   owner: Meta, systemProgram: Meta, tokenProgram: Meta): (r: Result<Ledger>)
    ensures AtaCheckForOwner(env, l, account, mint, owner, tokenProgram).Pass? ==> r == Ok(l)
    ensures r.Ok? ==> account.key == AtaAddress(env, owner.key, tokenProgram.key, mint.key)
    ensures r.Ok? && r.value != l ==>
      Unused(Get(l, account.key)) && Get(r.value, account.key).holding == Some(Holding(mint.key, owner.key, 0))
    ensures r.Ok? ==> forall a :: a != payer.key && a != account.key ==> Get(r.value, a) == Get(l, a)
    ensures r.Ok? ==> RecordsKept(l, r.value)
    ensures r.Ok? && payer.key != account.key ==>
      Get(r.value, payer.key) == Get(l, payer.key).(lamports := Lamports(r.value, payer.key))
    ensures r.Ok? && HoldingsOwned(l) ==> HoldingsOwned(r.value) && forall x :: Amount(r.value, x) == Amount(l, x)
  {
    InitIfNeeded(l, AtaCheckForOwner(env, l, account, mint, owner, tokenProgram),
                 AtaInit(env, l, metas, account, mint, payer, owner, systemProgram, tokenProgram))
  }

  /** With the owner-based check, a second call after a successful one changes
      nothing, whoever pays, as long as the classic token program is named. */
  lemma AtaInitIfNeededForOwnerIdempotent(env: Env, l: Ledger, metas: seq<Meta>, account: Meta, mint: Meta,
                                          payer: Meta, owner: Meta, systemProgram: Meta, tokenProgram: Meta)
    requires tokenProgram.key == TOKEN_PROGRAM
    requires AtaInitIfNeededForOwner(env, l, metas, account, mint, payer, owner, systemProgram, tokenProgram).Ok?
    ensures var l1 := AtaInitIfNeededForOwner(env, l, metas, account, mint, payer, owner, systemProgram, tokenProgram).value;
      AtaInitIfNeededForOwner(env, l1, metas, account, mint, payer, owner, systemProgram, tokenProgram) == Ok(l1)
  {
    var l1 := AtaInitIfNeededForOwner(env, l, metas, account, mint, payer, owner, systemProgram, tokenProgram).value;
    if AtaCheckForOwner(env, l, account, mint, owner, tokenProgram).Fail? {
      var a := Get(l1, account.key);
      assert a.owner == TOKEN_PROGRAM && |a.data| == TOKEN_ACCOUNT_LEN;
    }
  }

  /** As `AtaInitIfNeeded`, with the creation also signed by the
      program-derived address of `seeds`; the check is likewise made against
      the payer. */
  function AtaInitIfNeededSigned(env: Env, l: Ledger, metas: seq<Meta>, account: Meta, mint: Meta, payer: Meta,
                                 owner: Meta, systemProgram: Meta, tokenProgram: Meta, seeds: seq<Seed>): (r: Result<Ledger>)
    ensures AtaCheckForPayer(env, l, account, mint, payer, tokenProgram).Pass? ==> r == Ok(l)
    ensures r.Ok? && r.value != l ==>
      account.key == AtaAddress(env, owner.key, tokenProgram.key, mint.key)
      && env.createPda(seeds, PROGRAM_ID).Some?
      && Unused(Get(l, account.key))
      && Get(r.value, account.key).holding == Some(Holding(mint.key, owner.key, 0))
    ensures r.Ok? ==> forall a :: a != payer.key && a != account.key ==> Get(r.value, a) == Get(l, a)
    ensures r.Ok? ==> RecordsKept(l, r.value)
    ensures r.Ok? && payer.key != account.key ==>
      Get(r.value, payer.key) == Get(l, payer.key).(lamports := Lamports(r.value, payer.key))
    ensures r.Ok? && HoldingsOwned(l) ==> HoldingsOwned(r.value) && forall x :: Amount(r.value, x) == Amount(l, x)
  {
    InitIfNeeded(l, AtaCheckForPayer(env, l, account, mint, payer, tokenProgram),
                 AtaInitSigned(env, l, metas, account, mint, payer, owner, systemProgram, tokenProgram, seeds))
  }

  /** When the payer is the owner and the classic token program is named, a
      second call after a successful one passes the check and changes nothing. */
  lemma AtaInitIfNeededIdempotent(env: Env, l: Ledger, metas: seq<Meta>, account: Meta, mint: Meta, payer: Meta,
                                  owner: Meta, systemProgram: Meta, tokenProgram: Meta)
    requires payer.key == owner.key && tokenProgram.key == TOKEN_PROGRAM
    requires AtaInitIfNeeded(env, l, metas, account, mint, payer, owner, systemProgram, tokenProgram).Ok?
    ensures var l1 := AtaInitIfNeeded(env, l, metas, account, mint, payer, owner, systemProgram, tokenProgram).value;
      && AtaCheckForPayer(env, l1, account, mint, payer, tokenProgram).Pass?
      && AtaInitIfNeeded(env, l1, metas, account, mint, payer, owner, systemProgram, tokenProgram) == Ok(l1)
  {
    var l1 := AtaInitIfNeeded(env, l, metas, account, mint, payer, owner, systemProgram, tokenProgram).value;
    if AtaCheckForPayer(env, l, account, mint, payer, tokenProgram).Fail? {
      var a := Get(l1, account.key);
      assert a.owner == TOKEN_PROGRAM && |a.data| == TOKEN_ACCOUNT_LEN;
    }
  }

  /** Under the Token-2022 program the wrapper is not idempotent even when the
      payer is the owner: the account it creates is owned by Token-2022, the
      classic holding check rejects it, and the second Create refuses an
      account that already exists. */
  lemma AtaInitIfNeededNotIdempotentOn2022(env: Env, l: Ledger, metas: seq<Meta>, account: Meta, mint: Meta, payer: Meta,
                                           owner: Meta, systemProgram: Meta, tokenProgram: Meta)
    requires tokenProgram.key == TOKEN_2022_PROGRAM
    requires AtaCheckForPayer(env, l, account, mint, payer, tokenProgram).Fail?
    requires AtaInitIfNeeded(env, l, metas, account, mint, payer, owner, systemProgram, tokenProgram).Ok?
    ensures var l1 := AtaInitIfNeeded(env, l, metas, account, mint, payer, owner, systemProgram, tokenProgram).value;
      && AtaCheckForPayer(env, l1, account, mint, payer, tokenProgram).Fail?
      && AtaInitIfNeeded(env, l1, metas, account, mint, payer, owner, systemProgram, tokenProgram) == Err(IllegalOwner)
  {
    var l1 := AtaInitIfNeeded(env, l, metas, account, mint, payer, owner, systemProgram, tokenProgram).value;
    assert Get(l1, account.key).owner == TOKEN_2022_PROGRAM;
  }

  /** When the payer is not the owner, an associated account the owner already
      holds fails the payer-based check, is sent to Create again, and the whole
      call fails: the wrapper is not a no-op on an existing account. */
  lemma AtaInitIfNeededRejectsExistingForOtherOwner(env: Env, l: Ledger, metas: seq<Meta>, account: Meta, mint: Meta,
                                                    payer: Meta, owner: Meta, systemProgram: Meta, tokenProgram: Meta)
    requires AtaDerivationInjective(env)
    requires payer.key != owner.key
    requires account.key == AtaAddress(env, owner.key, tokenProgram.key, mint.key)
    requires Get(l, account.key).owner != SYSTEM_PROGRAM
    ensures AtaInitIfNeeded(env, l, metas, account, mint, payer, owner, systemProgram, tokenProgram).Err?
    ensures ((tokenProgram.key == TOKEN_PROGRAM || tokenProgram.key == TOKEN_2022_PROGRAM)
             && systemProgram.key == SYSTEM_PROGRAM) ==>
      AtaInitIfNeeded(env, l, metas, account, mint, payer, owner, systemProgram, tokenProgram) == Err(IllegalOwner)
  {
    assert AtaCheckForPayer(env, l, account, mint, payer, tokenProgram).Fail?;
  }

  // ----- the program's custodial account -----

  /** Create an account owned by this program, signed for by the
      program-derived address of `seeds` and funded by `payer`. */
  function ProgramAccountInit(env: Env, l: Ledger, metas: seq<Meta>, payer: Address, account: Address,
                              seeds: seq<Seed>, space: nat): (r: Result<Ledger>)
    ensures r.Ok? ==> account in TxSigners(metas) || env.createPda(seeds, PROGRAM_ID) == Some(account)
    ensures r.Ok? ==>
      (ProgramAccountCheck(View(account, false, Get(r.value, account))).Pass? <==> space == ESCROW_LEN)
  {
    var signers :- CpiSigners(env, metas, Some(seeds));
    SystemCreateAccount(l, signers, payer, account, env.rent(space), space, PROGRAM_ID)
  }

  /** Decommission step 1: the first data byte becomes the tombstone marker,
      which also destroys any record the bytes held. */
  function Tombstone(acct: Account): (r: Account)
    requires |acct.data| > 0
    ensures |r.data| == |acct.data| && r.data[0] == TOMBSTONE && r.record.None?
    ensures r.owner == acct.owner && r.lamports == acct.lamports
  {
    acct.(data := acct.data[0 := TOMBSTONE], record := None)
  }

  /** Decommission step 3: the data shrinks to its first byte. */
  function Shrink(acct: Account): (r: Account)
    requires |acct.data| > 0
    ensures r.data == [acct.data[0]] && r.owner == acct.owner
  {
    acct.(data := acct.data[..1])
  }

  /** Decommission: tombstone, move every lamport of the account to the
      destination, shrink to one byte, then zero owner, lamports and length.
      Writing the first byte panics on an account without data. */
  function ProgramAccountClose(l: Ledger, account: Address, destination: Address): (r: Result<Ledger>)
    ensures r.Err? <==> |Get(l, account).data| == 0
    ensures r.Err? ==> r.error == Abort
    ensures r.Ok? ==> Get(r.value, account) == EMPTY
    ensures r.Ok? && destination != account ==>
      Get(r.value, destination) == Get(l, destination).(lamports := Lamports(l, destination) + Lamports(l, account))
    ensures r.Ok? ==> forall a :: a != account && a != destination ==> Get(r.value, a) == Get(l, a)
    ensures r.Ok? ==> RecordsKept(l, r.value)
  {
    var acct := Get(l, account);
    if |acct.data| == 0 then Err(Abort)
    else
      var l1 := Put(l, account, Tombstone(acct));
      var l2 := Put(l1, destination, Get(l1, destination).(lamports := Lamports(l1, destination) + Lamports(l1, account)));
      var l3 := Put(l2, account, Shrink(Get(l2, account)));
      Ok(Put(l3, account, EMPTY))
  }

  /** A record-sized program account fails the custodial check from the
      moment it is shrunk, and a closed one fails it on ownership; the record
      itself is gone from the first step on. */
  lemma DecommissionedFailsCheck(key: Address, acct: Account)
    requires ProgramAccountCheck(View(key, false, acct)).Pass?
    ensures Tombstone(acct).record.None?
    ensures ProgramAccountCheck(View(key, false, Shrink(Tombstone(acct)))) == Fail(InvalidAccountData)
    ensures ProgramAccountCheck(View(key, false, EMPTY)) == Fail(InvalidAccountOwner)
  {
  }
}

=== FILE: checks.dfy ===
/** The account-capability checks: each inspects one account view and either
    passes or reports the first condition the account violates. */
module Checks {
  import opened Types
  import opened Ledger

  /** Passes exactly when the account signed the transaction. */
  function SignerCheck(v: View): (r: Outcome)
    ensures r.Pass? <==> v.isSigner
    ensures r.Fail? ==> r.error == MissingRequiredSignature
  {
    if !v.isSigner then Fail(MissingRequiredSignature) else Pass
  }

  /** Passes exactly when the system program owns the account. */
  function SystemCheck(v: View): (r: Outcome)
    ensures r.Pass? <==> v.account.owner == SYSTEM_PROGRAM
    ensures r.Fail? ==> r.error == IllegalOwner
  {
    if v.account.owner != SYSTEM_PROGRAM then Fail(IllegalOwner) else Pass
  }

  /** A classic mint: owned by the classic token program and exactly mint-sized.
      Ownership is tested first. */
  function MintCheck(v: View): (r: Outcome)
    ensures r.Pass? <==> v.account.owner == TOKEN_PROGRAM && |v.account.data| == MINT_LEN
    ensures v.account.owner != TOKEN_PROGRAM ==> r == Fail(IllegalOwner)
    ensures v.account.owner == TOKEN_PROGRAM && r.Fail? ==> r.error == InvalidAccountData
  {
    if v.account.owner != TOKEN_PROGRAM then Fail(IllegalOwner)
    else if |v.account.data| != MINT_LEN then Fail(InvalidAccountData)
    else Pass
  }

  /** A classic holding account: owned by the classic token program and exactly
      holding-sized.  Ownership is tested first. */
  function TokenAccountCheck(v: View): (r: Outcome)
    ensures r.Pass? <==> v.account.owner == TOKEN_PROGRAM && |v.account.data| == TOKEN_ACCOUNT_LEN
    ensures v.account.owner != TOKEN_PROGRAM ==> r == Fail(IllegalOwner)
    ensures v.account.owner == TOKEN_PROGRAM && r.Fail? ==> r.error == InvalidAccountData
  {
    if v.account.owner != TOKEN_PROGRAM then Fail(IllegalOwner)
    else if |v.account.data| != TOKEN_ACCOUNT_LEN then Fail(InvalidAccountData)
    else Pass
  }

  /** The Token-2022 account-type byte is `tag`.  Only meaningful, and only
      read, when the data extends past the discriminator offset. */
  predicate Tagged(data: seq<u8>, tag: u8) {
    |data| > TOKEN_2022_DISCRIMINATOR_OFFSET && data[TOKEN_2022_DISCRIMINATOR_OFFSET] == tag
  }

  /** A Token-2022 mint: owned by the Token-2022 program and either exactly
      classic-mint-sized (no discriminator is read) or longer than the
      discriminator offset with the mint tag there. */
  function Mint2022Check(v: View): (r: Outcome)
    ensures r.Pass? <==>
      v.account.owner == TOKEN_2022_PROGRAM
      && (|v.account.data| == MINT_LEN || Tagged(v.account.data, TOKEN_2022_MINT_TAG))
    ensures v.account.owner != TOKEN_2022_PROGRAM ==> r == Fail(IllegalOwner)
    ensures v.account.owner == TOKEN_2022_PROGRAM && r.Fail? ==> r.error == InvalidAccountData
  {
    var data := v.account.data;
    if v.account.owner != TOKEN_2022_PROGRAM then Fail(IllegalOwner)
    else if |data| != MINT_LEN then
      if |data| <= TOKEN_2022_DISCRIMINATOR_OFFSET then Fail(InvalidAccountData)
      else if data[TOKEN_2022_DISCRIMINATOR_OFFSET] != TOKEN_2022_MINT_TAG then Fail(InvalidAccountData)
      else Pass
    else Pass
  }

  /** A Token-2022 holding account: owned by the Token-2022 program and either
      exactly classic-holding-sized (no discriminator is read) or longer than
      the discriminator offset with the holding tag there. */
  function TokenAccount2022Check(v: View): (r: Outcome)
    ensures r.Pass? <==>
      v.account.owner == TOKEN_2022_PROGRAM
      && (|v.account.data| == TOKEN_ACCOUNT_LEN || Tagged(v.account.data, TOKEN_2022_ACCOUNT_TAG))
    ensures v.account.owner != TOKEN_2022_PROGRAM ==> r == Fail(IllegalOwner)
    ensures v.account.owner == TOKEN_2022_PROGRAM && r.Fail? ==> r.error == InvalidAccountData
  {
    var data := v.account.data;
    if v.account.owner != TOKEN_2022_PROGRAM then Fail(IllegalOwner)
    else if |data| != TOKEN_ACCOUNT_LEN then
      if |data| <= TOKEN_2022_DISCRIMINATOR_OFFSET then Fail(InvalidAccountData)
      else if data[TOKEN_2022_DISCRIMINATOR_OFFSET] != TOKEN_2022_ACCOUNT_TAG then Fail(InvalidAccountData)
      else Pass
    else Pass
  }

  /** A mint of either standard: a classic-owned account must be exactly
      mint-sized; a Token-2022-owned one must carry the mint tag past the
      discriminator offset, whatever its length. */
  function MintInterfaceCheck(v: View): (r: Outcome)
    ensures r.Pass? <==>
      || (v.account.owner == TOKEN_PROGRAM && |v.account.data| == MINT_LEN)
      || (v.account.owner == TOKEN_2022_PROGRAM && Tagged(v.account.data, TOKEN_2022_MINT_TAG))
    ensures v.account.owner != TOKEN_PROGRAM && v.account.owner != TOKEN_2022_PROGRAM ==> r == Fail(IllegalOwner)
    ensures (v.account.owner == TOKEN_PROGRAM || v.account.owner == TOKEN_2022_PROGRAM) && r.Fail? ==>
      r.error == InvalidAccountData
  {
    var isToken2022 := v.account.owner == TOKEN_2022_PROGRAM;
    var isSplToken := v.account.owner == TOKEN_PROGRAM;
    var data := v.account.data;
    if !isToken2022 && !isSplToken then Fail(IllegalOwner)
    else if isSplToken then
      if |data| != MINT_LEN then Fail(InvalidAccountData) else Pass
    else
      if |data| <= TOKEN_2022_DISCRIMINATOR_OFFSET then Fail(InvalidAccountData)
      else if data[TOKEN_2022_DISCRIMINATOR_OFFSET] != TOKEN_2022_MINT_TAG then Fail(InvalidAccountData)
      else Pass
  }

  /** A holding account of either standard: a classic-owned account must be
      exactly holding-sized; a Token-2022-owned one must carry the holding tag
      past the discriminator offset, whatever its length. */
  function TokenAccountInterfaceCheck(v: View): (r: Outcome)
    ensures r.Pass? <==>
      || (v.account.owner == TOKEN_PROGRAM && |v.account.data| == TOKEN_ACCOUNT_LEN)
      || (v.account.owner == TOKEN_2022_PROGRAM && Tagged(v.account.data, TOKEN_2022_ACCOUNT_TAG))
    ensures v.account.owner != TOKEN_PROGRAM && v.account.owner != TOKEN_2022_PROGRAM ==> r == Fail(IllegalOwner)
    ensures (v.account.owner == TOKEN_PROGRAM || v.account.owner == TOKEN_2022_PROGRAM) && r.Fail? ==>
      r.error == InvalidAccountData
  {
    var isToken2022 := v.account.owner == TOKEN_2022_PROGRAM;
    var isSplToken := v.account.owner == TOKEN_PROGRAM;
    var data := v.account.data;
    if !isSplToken && !isToken2022 then Fail(IllegalOwner)
    else if isSplToken then
      if |data| != TOKEN_ACCOUNT_LEN then Fail(InvalidAccountData) else Pass
    else
      if |data| <= TOKEN_2022_DISCRIMINATOR_OFFSET then Fail(InvalidAccountData)
      else if data[TOKEN_2022_DISCRIMINATOR_OFFSET] != TOKEN_2022_ACCOUNT_TAG then Fail(InvalidAccountData)
      else Pass
  }

  /** An associated token account: the classic holding check, then the account
      must sit at the derived address of (authority, token program, mint). */
  function AtaCheck(env: Env, account: View, authority: View, mint: View, tokenProgram: View): (r: Outcome)
    ensures r.Pass? <==>
      TokenAccountCheck(account).Pass?
      && account.key == AtaAddress(env, authority.key, tokenProgram.key, mint.key)
    ensures TokenAccountCheck(account).Fail? ==> r == TokenAccountCheck(account)
    ensures TokenAccountCheck(account).Pass? && r.Fail? ==> r.error == InvalidArgument
  {
    var tokenCheck := TokenAccountCheck(account);
    if tokenCheck.Fail? then tokenCheck
    else if AtaAddress(env, authority.key, tokenProgram.key, mint.key) != account.key then Fail(InvalidArgument)
    else Pass
  }

  /** The program's own custodial account: owned by this program (else
      InvalidAccountOwner) and exactly escrow-record-sized (else InvalidAccountData). */
  function ProgramAccountCheck(v: View): (r: Outcome)
    ensures r.Pass? <==> v.account.owner == PROGRAM_ID && |v.account.data| == ESCROW_LEN
    ensures v.account.owner != PROGRAM_ID ==> r == Fail(InvalidAccountOwner)
    ensures v.account.owner == PROGRAM_ID && r.Fail? ==> r.error == InvalidAccountData
  {
    if v.account.owner != PROGRAM_ID then Fail(InvalidAccountOwner)
    else if |v.account.data| != ESCROW_LEN then Fail(InvalidAccountData)
    else Pass
  }

  /** The first failing outcome of a sequence of checks run in order, or Pass
      when all pass. */
  function FirstFailure(checks: seq<Outcome>): (r: Outcome)
    ensures r.Pass? <==> forall i :: 0 <= i < |checks| ==> checks[i].Pass?
    ensures r.Fail? ==> exists i :: 0 <= i < |checks| && checks[i] == r && forall j :: 0 <= j < i ==> checks[j].Pass?
  {
    if |checks| == 0 then Pass
    else if checks[0].Fail? then checks[0]
    else FirstFailure(checks[1..])
  }

  /** On classic-owned accounts the interface checks decide exactly as the
      classic checks do. */
  lemma InterfaceMatchesClassic(v: View)
    requires v.account.owner == TOKEN_PROGRAM
    ensures MintInterfaceCheck(v) == MintCheck(v)
    ensures TokenAccountInterfaceCheck(v) == TokenAccountCheck(v)
  {
  }

  /** On Token-2022-owned accounts the interface checks accept a subset of what
      the dedicated Token-2022 checks accept, and differ exactly on accounts of
      the classic length: those the dedicated checks accept without reading a
      discriminator, and the interface checks reject. */
  lemma InterfaceNarrowerOn2022(v: View)
    requires v.account.owner == TOKEN_2022_PROGRAM
    ensures MintInterfaceCheck(v).Pass? ==> Mint2022Check(v).Pass?
    ensures TokenAccountInterfaceCheck(v).Pass? ==> TokenAccount2022Check(v).Pass?
    ensures Mint2022Check(v).Pass? && !MintInterfaceCheck(v).Pass? <==> |v.account.data| == MINT_LEN
    ensures TokenAccount2022Check(v).Pass? && !TokenAccountInterfaceCheck(v).Pass? <==>
      |v.account.data| == TOKEN_ACCOUNT_LEN
  {
  }

  /** No account passes both a mint check and a holding check of the same
      family, so a holding can never be taken for a mint or vice versa. */
  lemma MintAndHoldingDisjoint(v: View)
    ensures !(MintCheck(v).Pass? && TokenAccountCheck(v).Pass?)
    ensures !(Mint2022Check(v).Pass? && TokenAccount2022Check(v).Pass?)
    ensures !(MintInterfaceCheck(v).Pass? && TokenAccountInterfaceCheck(v).Pass?)
  {
  }
}

=== FILE: cpi.dfy ===
/** The collaborator programs the escrow calls into — the system program, the
    classic token program and the associated-token-account program — reduced
    to their effect on the abstract ledger and the conditions under which they
    fail.  A failing call aborts the whole instruction, so each returns either
    the new ledger or an error. */
module Cpi {
  import opened Types
  import opened Ledger

  /** Only the holding may differ between the two accounts. */
  predicate SameShape(x: Account, y: Account) {
    x.owner == y.owner && x.lamports == y.lamports && x.data == y.data && x.record == y.record
  }

  /** Every escrow record present after a step was already present, under the
      same owner, before it: steps may erase records but never forge them. */
  ghost predicate RecordsKept(l: Ledger, l': Ledger) {
    forall a :: Get(l', a).record.None? || (Get(l', a).record == Get(l, a).record && Get(l', a).owner == Get(l, a).owner)
  }

  lemma RecordsKeptTrans(l1: Ledger, l2: Ledger, l3: Ledger)
    requires RecordsKept(l1, l2) && RecordsKept(l2, l3)
    ensures RecordsKept(l1, l3)
  {
  }

  /** The accounts allowed to authorise a cross-program call: the transaction's
      signers, plus the program-derived address of `seeds` under this program
      when the call is made with signer seeds. */
  function CpiSigners(env: Env, metas: seq<Meta>, seeds: Option<seq<Seed>>): (r: Result<set<Address>>)
    ensures r.Ok? ==> TxSigners(metas) <= r.value
    ensures r.Ok? && seeds.Some? ==> env.createPda(seeds.value, PROGRAM_ID).Some?
    ensures r.Ok? ==> forall a :: a in r.value && a !in TxSigners(metas) ==>
      seeds.Some? && env.createPda(seeds.value, PROGRAM_ID) == Some(a)
    ensures seeds.None? ==> r == Ok(TxSigners(metas))
  {
    match seeds
    case None => Ok(TxSigners(metas))
    case Some(s) =>
      match env.createPda(s, PROGRAM_ID)
      case None => Err(InvalidSeeds)
      case Some(pda) => Ok(TxSigners(metas) + {pda})
  }

  /** `create_program_address` under this program, failing with InvalidSeeds
      when the seeds derive no address. */
  function CreateProgramAddress(env: Env, seeds: seq<Seed>): (r: Result<Address>)
    ensures r.Ok? <==> env.createPda(seeds, PROGRAM_ID).Some?
    ensures r.Ok? ==> env.createPda(seeds, PROGRAM_ID) == Some(r.value)
    ensures r.Err? ==> r.error == InvalidSeeds
  {
    match env.createPda(seeds, PROGRAM_ID)
    case None => Err(InvalidSeeds)
    case Some(a) => Ok(a)
  }

  /** The balance read from a classic token account's bytes: the account must
      be holding-sized (else InvalidAccountData) and owned by the classic token
      program (else InvalidAccountOwner).  An account with no decoded holding
      reads as zero. */
  function TokenAmountOf(key: Address, l: Ledger): (r: Result<u64>)
    ensures r.Ok? <==> |Get(l, key).data| == TOKEN_ACCOUNT_LEN && Get(l, key).owner == TOKEN_PROGRAM
    ensures r.Ok? ==> r.value == Amount(l, key)
  {
    var acct := Get(l, key);
    if |acct.data| != TOKEN_ACCOUNT_LEN then Err(InvalidAccountData)
    else if acct.owner != TOKEN_PROGRAM then Err(InvalidAccountOwner)
    else Ok(Amount(l, key))
  }

  /** Moves `n` lamports; the source must hold them. */
  function MoveLamports(l: Ledger, from: Address, to: Address, n: nat): (r: Ledger)
    requires Lamports(l, from) >= n
    ensures from != to ==> Lamports(r, from) == Lamports(l, from) - n && Lamports(r, to) == Lamports(l, to) + n
    ensures from == to ==> r == l
    ensures forall a :: a != from && a != to ==> Get(r, a) == Get(l, a)
    ensures forall a :: Get(r, a) == Get(l, a).(lamports := Lamports(r, a))
  {
    if from == to then l
    else
      var l1 := Put(l, from, Get(l, from).(lamports := Lamports(l, from) - n));
      Put(l1, to, Get(l1, to).(lamports := Lamports(l1, to) + n))
  }

  /** The system program's Transfer: `from` must sign and must be a plain
      system account without data (the runtime refuses to debit an account
      the system program does not own; both are reported as InvalidArgument),
      and must hold the amount. */
  function SystemTransfer(l: Ledger, signers: set<Address>, from: Address, to: Address, lamports: nat): (r: Result<Ledger>)
    ensures r.Ok? <==> from in signers && Unused(Get(l, from)) && Lamports(l, from) >= lamports
    ensures from !in signers ==> r == Err(MissingRequiredSignature)
    ensures r.Ok? ==> r.value == MoveLamports(l, from, to, lamports)
  {
    if from !in signers then Err(MissingRequiredSignature)
    else if !Unused(Get(l, from)) then Err(InvalidArgument)
    else if Lamports(l, from) < lamports then Err(Custom(SYSTEM_INSUFFICIENT_LAMPORTS))
    else Ok(MoveLamports(l, from, to, lamports))
  }

  /** The system program's Allocate followed by Assign: the account must sign
      and must be an unallocated system account; it receives `space` zero
      bytes and the new owner, keeping its lamports. */
  function SystemAllocateAssign(l: Ledger, signers: set<Address>, account: Address, space: nat, owner: Address): (r: Result<Ledger>)
    ensures r.Ok? <==> account in signers && Unused(Get(l, account))
    ensures r.Ok? ==> r.value == Put(l, account, Account(owner, Lamports(l, account), Zeros(space), None, None))
  {
    if account !in signers then Err(MissingRequiredSignature)
    else if !Unused(Get(l, account)) then Err(Custom(SYSTEM_ACCOUNT_ALREADY_IN_USE))
    else Ok(Put(l, account, Account(owner, Lamports(l, account), Zeros(space), None, None)))
  }

  /** The system program's CreateAccount: `to` must be unfunded, must sign and
      must be unallocated; then `lamports` move from `from` as in Transfer;
      `to` receives `space` zero bytes and the new owner. */
  function SystemCreateAccount(l: Ledger, signers: set<Address>, from: Address, to: Address,
                               lamports: nat, space: nat, owner: Address): (r: Result<Ledger>)
    ensures r.Ok? ==> from in signers && to in signers && Unused(Get(l, to)) && Lamports(l, to) == 0
    ensures r.Ok? && from != to ==> Unused(Get(l, from))
    ensures r.Ok? ==> Get(r.value, to) == Account(owner, lamports, Zeros(space), None, None)
    ensures r.Ok? && from != to ==>
      Lamports(r.value, from) == Lamports(l, from) - lamports
      && Get(r.value, from) == Get(l, from).(lamports := Lamports(r.value, from))
    ensures r.Ok? ==> forall a :: a != from && a != to ==> Get(r.value, a) == Get(l, a)
    ensures r.Ok? ==> RecordsKept(l, r.value)
  {
    var target := Get(l, to);
    if target.lamports > 0 then Err(Custom(SYSTEM_ACCOUNT_ALREADY_IN_USE))
    else
      var l1 :- SystemAllocateAssign(l, signers, to, space, owner);
      var l2 :- SystemTransfer(l1, signers, from, to, lamports);
      Ok(l2)
  }

  /** Creation of a rent-exempt account whether or not it is already funded:
      an unfunded account is created outright from the payer; a funded one is
      topped up from the payer by what it lacks of the minimum (no transfer
      when nothing is lacking), then allocated and assigned. */
  function CreateWithMinimumBalance(env: Env, l: Ledger, signers: set<Address>, payer: Address,
                                    account: Address, space: nat, owner: Address): (r: Result<Ledger>)
    ensures r.Ok? ==> account in signers && Unused(Get(l, account))
    ensures r.Ok? ==> var a := Get(r.value, account);
      a.owner == owner && a.data == Zeros(space) && a.holding.None? && a.record.None?
    ensures r.Ok? && payer != account ==> Lamports(r.value, account) >= env.rent(space)
    ensures r.Ok? ==> forall a :: a != payer && a != account ==> Get(r.value, a) == Get(l, a)
    ensures r.Ok? && payer != account ==> Get(r.value, payer) == Get(l, payer).(lamports := Lamports(r.value, payer))
    ensures r.Ok? ==> RecordsKept(l, r.value)
  {
    var target := Get(l, account);
    if target.lamports == 0 then SystemCreateAccount(l, signers, payer, account, env.rent(space), space, owner)
    else
      var need := if target.lamports < env.rent(space) then env.rent(space) - target.lamports else 0;
      var l1 :- if need > 0 then SystemTransfer(l, signers, payer, account, need) else Ok(l);
      SystemAllocateAssign(l1, signers, account, space, owner)
  }

  /** The bytes of a freshly created associated token account: the classic
      holding layout, or for Token-2022 that layout followed by the
      account-type byte and the immutable-owner extension. */
  function HoldingData(tokenProgram: Address): (r: seq<u8>)
    ensures tokenProgram == TOKEN_PROGRAM ==> |r| == TOKEN_ACCOUNT_LEN
  {
    if tokenProgram == TOKEN_PROGRAM then Zeros(TOKEN_ACCOUNT_LEN)
    else Zeros(TOKEN_2022_DISCRIMINATOR_OFFSET) + [TOKEN_2022_ACCOUNT_TAG] + Zeros(4)
  }

  /** The associated-token-account program's (non-idempotent) Create: the
      account must sit at the derived address of (wallet, token program, mint)
      and must not exist yet; the payer funds it; it becomes an empty holding
      of `mint` with `wallet` as authority, owned by the token program. */
  function AtaCreate(env: Env, l: Ledger, signers: set<Address>, payer: Address, account: Address,
                     wallet: Address, mint: Address, systemProgram: Address, tokenProgram: Address): (r: Result<Ledger>)
    ensures r.Ok? ==> account == AtaAddress(env, wallet, tokenProgram, mint)
    ensures r.Ok? ==> Unused(Get(l, account))
    ensures r.Ok? ==> tokenProgram == TOKEN_PROGRAM || tokenProgram == TOKEN_2022_PROGRAM
    ensures r.Ok? ==> var a := Get(r.value, account);
      a.owner == tokenProgram && a.data == HoldingData(tokenProgram)
      && a.holding == Some(Holding(mint, wallet, 0)) && a.record.None?
    ensures r.Ok? ==> forall a :: a != payer && a != account ==> Get(r.value, a) == Get(l, a)
    ensures r.Ok? && payer != account ==> Get(r.value, payer) == Get(l, payer).(lamports := Lamports(r.value, payer))
    ensures r.Ok? ==> RecordsKept(l, r.value)
  {
    var target := Get(l, account);
    if tokenProgram != TOKEN_PROGRAM && tokenProgram != TOKEN_2022_PROGRAM then Err(IncorrectProgramId)
    else if systemProgram != SYSTEM_PROGRAM then Err(IncorrectProgramId)
    else if account != AtaAddress(env, wallet, tokenProgram, mint) then Err(InvalidSeeds)
    else if target.owner != SYSTEM_PROGRAM then Err(IllegalOwner)
    else if Get(l, mint).owner != tokenProgram then Err(IncorrectProgramId)
    else
      var data := HoldingData(tokenProgram);
      var l1 :- CreateWithMinimumBalance(env, l, signers + {account}, payer, account, |data|, tokenProgram);
      Ok(Put(l1, account, Get(l1, account).(data := data, holding := Some(Holding(mint, wallet, 0)))))
  }

  /** The classic token program's InitializeMint2: the mint must be an
      unrecorded classic-sized account owned by the classic program.  Mint
      state (decimals, authorities) is not tracked, so the ledger is unchanged. */
  function TokenInitializeMint(l: Ledger, mint: Address): (r: Result<Ledger>)
    ensures r.Ok? ==> Get(l, mint).owner == TOKEN_PROGRAM && |Get(l, mint).data| == MINT_LEN
    ensures r.Ok? ==> r.value == l
  {
    var m := Get(l, mint);
    if m.owner != TOKEN_PROGRAM then Err(IncorrectProgramId)
    else if |m.data| != MINT_LEN then Err(InvalidAccountData)
    else Ok(l)
  }

  /** The classic token program's InitializeAccount3: the account must be a
      classic-sized, not yet initialised account owned by the classic program,
      and `mint` a classic mint; the account becomes an empty holding of `mint`
      with `owner` as authority. */
  function TokenInitializeAccount(l: Ledger, account: Address, mint: Address, owner: Address): (r: Result<Ledger>)
    ensures r.Ok? ==> Get(l, account).owner == TOKEN_PROGRAM && |Get(l, account).data| == TOKEN_ACCOUNT_LEN
    ensures r.Ok? ==> Get(r.value, account) == Get(l, account).(holding := Some(Holding(mint, owner, 0)))
    ensures r.Ok? ==> forall a :: a != account ==> Get(r.value, a) == Get(l, a)
    ensures r.Ok? ==> RecordsKept(l, r.value)
  {
    var acct := Get(l, account);
    var m := Get(l, mint);
    if acct.owner != TOKEN_PROGRAM then Err(IncorrectProgramId)
    else if |acct.data| != TOKEN_ACCOUNT_LEN then Err(InvalidAccountData)
    else if acct.holding.Some? then Err(Custom(SYSTEM_ACCOUNT_ALREADY_IN_USE))
    else if m.owner != TOKEN_PROGRAM || |m.data| != MINT_LEN then Err(Custom(TOKEN_INVALID_MINT))
    else Ok(Put(l, account, acct.(holding := Some(Holding(mint, owner, 0)))))
  }

  /** The classic token program's Transfer: both accounts must be initialised
      holdings it owns, of the same mint; `authority` must be the source's
      authority and must sign; the source must hold `amount`.  A transfer to
      itself changes nothing. */
  function TokenTransfer(l: Ledger, signers: set<Address>, from: Address, to: Address,
                         authority: Address, amount: u64): (r: Result<Ledger>)
    ensures r.Ok? ==> Get(l, from).owner == TOKEN_PROGRAM && Get(l, to).owner == TOKEN_PROGRAM
    ensures r.Ok? ==> Get(l, from).holding.Some? && Get(l, to).holding.Some?
    ensures r.Ok? ==> Get(l, from).holding.value.authority == authority && authority in signers
    ensures r.Ok? ==> Get(l, from).holding.value.mint == Get(l, to).holding.value.mint
    ensures r.Ok? ==> amount <= Amount(l, from)
    ensures r.Ok? && from != to ==>
      Amount(r.value, from) == Amount(l, from) - amount && Amount(r.value, to) == Amount(l, to) + amount
    ensures r.Ok? && from == to ==> r.value == l
    ensures r.Ok? ==> forall a :: a != from && a != to ==> Get(r.value, a) == Get(l, a)
    ensures r.Ok? ==> forall a :: SameShape(Get(r.value, a), Get(l, a))
    ensures r.Ok? ==> forall a :: Get(r.value, a).holding.Some? == Get(l, a).holding.Some?
    ensures r.Ok? ==> RecordsKept(l, r.value)
  {
    var src := Get(l, from);
    var dst := Get(l, to);
    if src.owner != TOKEN_PROGRAM || dst.owner != TOKEN_PROGRAM then Err(IncorrectProgramId)
    else if src.holding.None? || dst.holding.None? then Err(Custom(TOKEN_UNINITIALIZED_STATE))
    else if src.holding.value.amount < amount then Err(Custom(TOKEN_INSUFFICIENT_FUNDS))
    else if src.holding.value.mint != dst.holding.value.mint then Err(Custom(TOKEN_MINT_MISMATCH))
    else if src.holding.value.authority != authority then Err(Custom(TOKEN_OWNER_MISMATCH))
    else if authority !in signers then Err(MissingRequiredSignature)
    else if from == to then Ok(l)
    else if dst.holding.value.amount + amount > U64_MAX then Err(Custom(TOKEN_OVERFLOW))
    else
      var l1 := Put(l, from, src.(holding := Some(src.holding.value.(amount := src.holding.value.amount - amount))));
      Ok(Put(l1, to, dst.(holding := Some(dst.holding.value.(amount := dst.holding.value.amount + amount)))))
  }

  /** The classic token program's CloseAccount: the account must be an empty
      holding it owns, `authority` its authority and a signer, and the
      destination another account; the destination receives all its lamports
      and the account ceases to exist. */
  function TokenCloseAccount(l: Ledger, signers: set<Address>, account: Address, destination: Address,
                             authority: Address): (r: Result<Ledger>)
    ensures r.Ok? ==> account != destination && Get(l, account).owner == TOKEN_PROGRAM
    ensures r.Ok? ==> Get(l, account).holding.Some? && Amount(l, account) == 0
    ensures r.Ok? ==> Get(l, account).holding.value.authority == authority && authority in signers
    ensures r.Ok? ==> Get(r.value, account) == EMPTY
    ensures r.Ok? ==> Get(r.value, destination) == Get(l, destination).(lamports := Lamports(l, destination) + Lamports(l, account))
    ensures r.Ok? ==> forall a :: a != account && a != destination ==> Get(r.value, a) == Get(l, a)
    ensures r.Ok? ==> RecordsKept(l, r.value)
  {
    var acct := Get(l, account);
    if account == destination then Err(InvalidAccountData)
    else if acct.owner != TOKEN_PROGRAM then Err(IncorrectProgramId)
    else if acct.holding.None? then Err(Custom(TOKEN_UNINITIALIZED_STATE))
    else if acct.holding.value.amount != 0 then Err(Custom(TOKEN_NON_NATIVE_HAS_BALANCE))
    else if acct.holding.value.authority != authority then Err(Custom(TOKEN_OWNER_MISMATCH))
    else if authority !in signers then Err(MissingRequiredSignature)
    else
      var l1 := Put(l, destination, Get(l, destination).(lamports := Lamports(l, destination) + acct.lamports));
      Ok(Put(l1, account, EMPTY))
  }
}

=== FILE: entrypoint.dfy ===
/** The program's entry point: the first byte of the instruction data selects
    the instruction, the rest is its payload, and a failing instruction leaves
    the ledger as it was. */
module Entrypoint {
  import opened Types
  import opened Ledger
  import opened Cpi
  import opened MakeIx
  import opened TakeIx
  import opened RefundIx

  const MAKE_TAG: u8 := 0
  const TAKE_TAG: u8 := 1
  const REFUND_TAG: u8 := 2

  /** A decoded instruction.  Only Make carries a payload. */
  datatype Instruction = MakeOp(payload: seq<u8>) | TakeOp | RefundOp

  /** Split off the tag byte: an empty input or an unknown tag fails with
      InvalidInstructionData; bytes after the tag of Take or Refund are
      ignored. */
  function Decode(data: seq<u8>): (r: Result<Instruction>)
    ensures r.Err? ==> r.error == InvalidInstructionData
    ensures r.Ok? <==> |data| > 0 && data[0] in {MAKE_TAG, TAKE_TAG, REFUND_TAG}
    ensures r == Ok(TakeOp) <==> |data| > 0 && data[0] == TAKE_TAG
    ensures r == Ok(RefundOp) <==> |data| > 0 && data[0] == REFUND_TAG
    ensures r.Ok? && r.value.MakeOp? <==> |data| > 0 && data[0] == MAKE_TAG
    ensures r.Ok? && r.value.MakeOp? ==> data == [MAKE_TAG] + r.value.payload
  {
    if |data| == 0 then Err(InvalidInstructionData)
    else if data[0] == MAKE_TAG then Ok(MakeOp(data[1..]))
    else if data[0] == TAKE_TAG then Ok(TakeOp)
    else if data[0] == REFUND_TAG then Ok(RefundOp)
    else Err(InvalidInstructionData)
  }

  function Encode(ix: Instruction): (r: seq<u8>)
    ensures |r| > 0
  {
    match ix
    case MakeOp(payload) => [MAKE_TAG] + payload
    case TakeOp => [TAKE_TAG]
    case RefundOp => [REFUND_TAG]
  }

  /** Every instruction decodes from its encoding. */
  lemma DecodeEncode(ix: Instruction)
    ensures Decode(Encode(ix)) == Ok(ix)
  {
    if ix.MakeOp? {
      assert Encode(ix)[1..] == ix.payload;
    }
  }

  /** Decoding then encoding restores the input up to the ignored bytes after
      a Take or Refund tag: exactly for Make, and the tag byte for the others. */
  lemma EncodeDecode(data: seq<u8>)
    requires Decode(data).Ok?
    ensures Decode(data).value.MakeOp? ==> Encode(Decode(data).value) == data
    ensures !Decode(data).value.MakeOp? ==> Encode(Decode(data).value) == data[..1]
  {
  }

  /** Dispatch on the decoded instruction: validation and account creation,
      then processing, for each of the three instructions as written. */
  function ProcessInstruction(env: Env, l: Ledger, metas: seq<Meta>, data: seq<u8>): (r: Result<Ledger>)
    ensures |data| == 0 ==> r == Err(InvalidInstructionData)
    ensures |data| > 0 && data[0] !in {MAKE_TAG, TAKE_TAG, REFUND_TAG} ==> r == Err(InvalidInstructionData)
    ensures |data| > 0 && data[0] == MAKE_TAG ==> r == MakeInstruction(env, l, metas, data[1..])
    ensures |data| > 0 && data[0] == TAKE_TAG ==> r == TakeInstruction(env, l, metas)
    ensures |data| > 0 && data[0] == REFUND_TAG ==> r == RefundInstruction(env, l, metas)
  {
    var ix :- Decode(data);
    match ix
    case MakeOp(payload) => MakeInstruction(env, l, metas, payload)
    case TakeOp => TakeInstruction(env, l, metas)
    case RefundOp => RefundInstruction(env, l, metas)
  }

  /** The ledger after the transaction: the instruction's result when it
      succeeds, and the ledger unchanged — every intermediate effect rolled
      back — when it fails.  Only Make can write a record: after any other
      instruction every record is one the ledger already held, in an account
      of the same owner. */
  function Transact(env: Env, l: Ledger, metas: seq<Meta>, data: seq<u8>): (r: Ledger)
    ensures ProcessInstruction(env, l, metas, data).Err? ==> r == l
    ensures ProcessInstruction(env, l, metas, data).Ok? ==> r == ProcessInstruction(env, l, metas, data).value
    ensures !(|data| > 0 && data[0] == MAKE_TAG) ==> RecordsKept(l, r)
  {
    match ProcessInstruction(env, l, metas, data)
    case Ok(l') => l'
    case Err(_) => l
  }
}

=== FILE: ledger.dfy ===
/** The abstract ledger the program runs against: accounts keyed by address,
    the token holdings and escrow records they carry, the account list an
    instruction receives, and the address-derivation and rent services of the
    host, which the model takes as parameters. */
module Ledger {
  import opened Types
  import opened Bytes

  /** Size of a classic token-program mint record. */
  const MINT_LEN: nat := 82
  /** Size of a classic token-program holding (token account) record. */
  const TOKEN_ACCOUNT_LEN: nat := 165
  /** Size of the escrow record: seed 8, maker 32, mint_a 32, mint_b 32,
      receive 8 and bump 1 bytes. */
  const ESCROW_LEN: nat := 113
  /** Offset of the Token-2022 account-type byte that follows the classic layout. */
  const TOKEN_2022_DISCRIMINATOR_OFFSET: nat := 165
  /** Token-2022 account-type byte of a mint. */
  const TOKEN_2022_MINT_TAG: u8 := 0x01
  /** Token-2022 account-type byte of a holding account. */
  const TOKEN_2022_ACCOUNT_TAG: u8 := 0x02
  /** Marker written over the first byte of a decommissioned program account. */
  const TOMBSTONE: u8 := 0xff

  /** The decoded state of an initialised token holding account. */
  datatype Holding = Holding(mint: Address, authority: Address, amount: u64)

  /** The escrow record persisted in a program-owned account. */
  datatype Escrow = Escrow(seed: u64, maker: Address, mintA: Address, mintB: Address, receive: u64, bump: u8)

  /** An account on the ledger.  `data` holds its raw bytes (only their length
      and individual discriminator bytes are read); `holding` and `record` are
      the decoded token-account state and escrow record when the bytes hold one. */
  datatype Account = Account(
    owner: Address,
    lamports: nat,
    data: seq<u8>,
    holding: Option<Holding>,
    record: Option<Escrow>)

  /** What an address that holds no account looks like: owned by the system
      program, no lamports, no data. */
  const EMPTY := Account(SYSTEM_PROGRAM, 0, [], None, None)

  type Ledger = map<Address, Account>

  function Get(l: Ledger, a: Address): Account {
    if a in l then l[a] else EMPTY
  }

  /** The ledger with the account at `a` replaced. */
  function Put(l: Ledger, a: Address, acct: Account): (r: Ledger)
    ensures Get(r, a) == acct
    ensures forall b :: b != a ==> Get(r, b) == Get(l, b)
  {
    l[a := acct]
  }

  function Lamports(l: Ledger, a: Address): nat {
    Get(l, a).lamports
  }

  /** The token balance held at `a`; zero where no holding is recorded. */
  function Amount(l: Ledger, a: Address): u64 {
    var h := Get(l, a).holding;
    if h.Some? then h.value.amount else 0
  }

  /** Only accounts owned by some program other than the system program carry
      a token holding. */
  ghost predicate HoldingsOwned(l: Ledger) {
    forall a :: Get(l, a).holding.Some? ==> Get(l, a).owner != SYSTEM_PROGRAM
  }

  /** No address occurs twice in `s`. */
  ghost predicate AllDistinct(s: seq<Address>) {
    forall i, j :: 0 <= i < j < |s| ==> s[i] != s[j]
  }

  /** An account that can still be allocated: system-owned and without data. */
  predicate Unused(acct: Account) {
    acct.owner == SYSTEM_PROGRAM && |acct.data| == 0
  }

  /** One entry of an instruction's account list. */
  datatype Meta = Meta(key: Address, isSigner: bool)

  /** An account as an instruction sees it: its address, whether it signed the
      transaction, and its current contents. */
  datatype View = View(key: Address, isSigner: bool, account: Account)

  function ViewOf(l: Ledger, m: Meta): View {
    View(m.key, m.isSigner, Get(l, m.key))
  }

  /** The addresses that signed the transaction. */
  function TxSigners(metas: seq<Meta>): set<Address> {
    set i | 0 <= i < |metas| && metas[i].isSigner :: metas[i].key
  }

  function Zeros(n: nat): (r: seq<u8>)
    ensures |r| == n
  {
    seq(n, _ => 0)
  }

  /** One seed of an address derivation. */
  datatype Seed = Text(s: string) | Key(a: Address) | Raw(b: seq<u8>)

  /** Host services the program calls but whose internals are not modelled:
      `findPda` is `find_program_address` (address and canonical bump),
      `createPda` is `create_program_address` (fails on seeds whose hash lies
      on the curve), and `rent` gives the rent-exempt minimum for a data size. */
  datatype Env = Env(
    findPda: (seq<Seed>, Address) -> (Address, u8),
    createPda: (seq<Seed>, Address) -> Option<Address>,
    rent: nat -> nat)

  /** The seeds ["escrow", maker, seed_le] that locate an escrow. */
  function EscrowSeeds(maker: Address, seed: u64): seq<Seed> {
    [Text("escrow"), Key(maker), Raw(U64ToLe(seed))]
  }

  /** The escrow seeds completed with the bump byte: what signs for the escrow. */
  function EscrowSignerSeeds(maker: Address, seed: u64, bump: u8): seq<Seed> {
    EscrowSeeds(maker, seed) + [Raw([bump])]
  }

  /** The associated token address of (wallet, token program, mint). */
  function AtaAddress(env: Env, wallet: Address, tokenProgram: Address, mint: Address): Address {
    env.findPda([Key(wallet), Key(tokenProgram), Key(mint)], ATA_PROGRAM).0
  }

  /** `create_program_address` is collision-free on escrow signer seeds: two
      lists of the form [escrow, maker, seed, bump] that derive the same
      address under this program are the same list.  This idealises the hash
      as injective and is strictly stronger than collision resistance: the
      2^328 lists of this form (6 + 32 + 8 + 1 bytes) cannot all map to
      distinct 256-bit addresses.  Each proof applies it to one pair of lists
      drawn from the instruction at hand, so a run that contradicted such a
      lemma would exhibit a colliding pair. */
  ghost predicate EscrowDerivationInjective(env: Env) {
    forall m1, s1, b1, m2, s2, b2 ::
      env.createPda(EscrowSignerSeeds(m1, s1, b1), PROGRAM_ID).Some? &&
      env.createPda(EscrowSignerSeeds(m1, s1, b1), PROGRAM_ID) == env.createPda(EscrowSignerSeeds(m2, s2, b2), PROGRAM_ID)
      ==> EscrowSignerSeeds(m1, s1, b1) == EscrowSignerSeeds(m2, s2, b2)
  }

  /** `find_program_address` is collision-free on associated-account seeds:
      two triples [wallet, token program, mint] that derive the same address
      under the associated-token-account program are the same triple.  Like
      the escrow predicate it idealises the hash: 2^768 triples cannot all map
      to distinct 256-bit addresses, and each proof uses it on one pair of
      triples drawn from the instruction at hand. */
  ghost predicate AtaDerivationInjective(env: Env) {
    forall w1, t1, k1, w2, t2, k2 ::
      AtaAddress(env, w1, t1, k1) == AtaAddress(env, w2, t2, k2) ==> w1 == w2 && t1 == t2 && k1 == k2
  }

  /** Escrow signer seeds determine the maker, the seed and the bump they
      were built from. */
  lemma SignerSeedsDetermineEscrow(m1: Address, s1: u64, b1: u8, m2: Address, s2: u64, b2: u8)
    requires EscrowSignerSeeds(m1, s1, b1) == EscrowSignerSeeds(m2, s2, b2)
    ensures m1 == m2 && s1 == s2 && b1 == b2
  {
    var x, y := EscrowSignerSeeds(m1, s1, b1), EscrowSignerSeeds(m2, s2, b2);
    assert x[1] == y[1] && x[2] == y[2] && x[3] == y[3];
    assert x[2].b == U64ToLe(s1) && y[2].b == U64ToLe(s2);
    U64ToLeInjective(s1, s2);
    assert x[3].b[0] == b1 && y[3].b[0] == b2;
  }

  /** Under an injective derivation, distinct wallets have distinct
      associated addresses for the same token program and mint. */
  lemma AtaAddressInjective(env: Env, w1: Address, w2: Address, tokenProgram: Address, mint: Address)
    requires AtaDerivationInjective(env)
    ensures AtaAddress(env, w1, tokenProgram, mint) == AtaAddress(env, w2, tokenProgram, mint) ==> w1 == w2
  {
  }


  /** Write the record into a program account; the account must be exactly
      record-sized. */
  function StoreEscrow(l: Ledger, key: Address, e: Escrow): (r: Result<Ledger>)
    ensures r.Ok? <==> |Get(l, key).data| == ESCROW_LEN
    ensures r.Ok? ==> Get(r.value, key) == Get(l, key).(record := Some(e))
    ensures r.Ok? ==> forall a :: a != key ==> Get(r.value, a) == Get(l, a)
  {
    var acct := Get(l, key);
    if |acct.data| != ESCROW_LEN then Err(InvalidAccountData)
    else Ok(Put(l, key, acct.(record := Some(e))))
  }

  /** Read the record of a program account; the account must be exactly
      record-sized and hold one. */
  function LoadEscrow(acct: Account): (r: Result<Escrow>)
    ensures r.Ok? <==> |acct.data| == ESCROW_LEN && acct.record.Some?
    ensures r.Ok? ==> r.value == acct.record.value
  {
    if |acct.data| != ESCROW_LEN then Err(InvalidAccountData)
    else if acct.record.None? then Err(InvalidAccountData)
    else Ok(acct.record.value)
  }
}

=== FILE: lifecycle.dfy ===
/** Properties of the escrow's life across instructions: every recorded
    escrow sits at the address its own record derives, so only the recorded
    maker can refund it and Take pays the recorded maker; and a settled
    escrow cannot be settled again. */
module Lifecycle {
  import opened Types
  import opened Ledger
  import opened Cpi
  import opened Checks
  import opened Capabilities
  import opened MakeIx
  import opened TakeIx
  import opened RefundIx
  import opened Entrypoint

  /** A program-owned account carrying a record sits at the address that the
      record's maker, seed and bump derive. */
  ghost predicate EscrowBoundAt(env: Env, a: Address, acct: Account) {
    acct.owner == PROGRAM_ID && acct.record.Some? ==>
      var e := acct.record.value;
      env.createPda(EscrowSignerSeeds(e.maker, e.seed, e.bump), PROGRAM_ID) == Some(a)
  }

  ghost predicate EscrowsBound(env: Env, l: Ledger) {
    forall a :: EscrowBoundAt(env, a, Get(l, a))
  }

  /** Steps that never forge records keep every record bound. */
  lemma RecordsKeptKeepsBound(env: Env, l: Ledger, l': Ledger)
    requires EscrowsBound(env, l) && RecordsKept(l, l')
    ensures EscrowsBound(env, l')
  {
    forall a ensures EscrowBoundAt(env, a, Get(l', a)) {
      assert EscrowBoundAt(env, a, Get(l, a));
    }
  }

  /** A Make whose escrow did not sign the transaction itself — the case of
      an escrow at a program-derived address, which has no key to sign with —
      leaves every record bound. */
  lemma MakeKeepsEscrowsBound(env: Env, l: Ledger, metas: seq<Meta>, payload: seq<u8>)
    requires EscrowsBound(env, l)
    requires MakeInstruction(env, l, metas, payload).Ok?
    requires |metas| == 9 && metas[1].key !in TxSigners(metas)
    ensures EscrowsBound(env, MakeInstruction(env, l, metas, payload).value)
  {
    MakeSetupEffects(env, l, metas, payload);
    var (m, l2) := MakeTryFrom(env, l, metas, payload).value;
    RecordsKeptKeepsBound(env, l, l2);
    var a := m.accounts;
    var e := Escrow(m.data.seed, a.maker.key, a.mintA.key, a.mintB.key, m.data.receive, m.bump);
    var l3 := StoreEscrow(l2, a.escrow.key, e).value;
    assert EscrowsBound(env, l3) by {
      forall x ensures EscrowBoundAt(env, x, Get(l3, x)) {
        if x != a.escrow.key {
          assert EscrowBoundAt(env, x, Get(l2, x));
        }
      }
    }
    RecordsKeptKeepsBound(env, l3, MakeInstruction(env, l, metas, payload).value);
  }

  /** Take, in either form, and Refund keep every record bound. */
  lemma SettlementKeepsEscrowsBound(env: Env, l: Ledger, metas: seq<Meta>)
    requires EscrowsBound(env, l)
    ensures TakeInstruction(env, l, metas).Ok? ==> EscrowsBound(env, TakeInstruction(env, l, metas).value)
    ensures TakeInstructionCorrected(env, l, metas).Ok? ==>
      EscrowsBound(env, TakeInstructionCorrected(env, l, metas).value)
    ensures RefundInstruction(env, l, metas).Ok? ==> EscrowsBound(env, RefundInstruction(env, l, metas).value)
  {
    if TakeInstruction(env, l, metas).Ok? {
      RecordsKeptKeepsBound(env, l, TakeInstruction(env, l, metas).value);
    }
    if TakeInstructionCorrected(env, l, metas).Ok? {
      RecordsKeptKeepsBound(env, l, TakeInstructionCorrected(env, l, metas).value);
    }
    if RefundInstruction(env, l, metas).Ok? {
      RecordsKeptKeepsBound(env, l, RefundInstruction(env, l, metas).value);
    }
  }

  /** Any transaction keeps every record bound, provided that a Make's escrow
      did not sign it. */
  lemma TransactKeepsEscrowsBound(env: Env, l: Ledger, metas: seq<Meta>, data: seq<u8>)
    requires EscrowsBound(env, l)
    requires |data| > 0 && data[0] == MAKE_TAG && |metas| == 9 ==> metas[1].key !in TxSigners(metas)
    ensures EscrowsBound(env, Transact(env, l, metas, data))
  {
    SettlementKeepsEscrowsBound(env, l, metas);
    if |data| > 0 && data[0] == MAKE_TAG && MakeInstruction(env, l, metas, data[1..]).Ok? {
      MakeEffects(env, l, metas, data[1..]);
      MakeKeepsEscrowsBound(env, l, metas, data[1..]);
    }
  }

  /** Refund re-derives nothing, yet only the recorded maker can refund: when
      the named escrow is bound, address derivation is injective and the
      escrow did not sign the transaction, a successful Refund was signed by
      exactly the maker its escrow records. */
  lemma RefundOnlyByMaker(env: Env, l: Ledger, metas: seq<Meta>)
    requires EscrowDerivationInjective(env)
    requires |metas| == REFUND_SLOTS && metas[1].key !in TxSigners(metas)
    requires EscrowBoundAt(env, metas[1].key, Get(l, metas[1].key))
    requires RefundInstruction(env, l, metas).Ok?
    ensures LoadEscrow(Get(l, metas[1].key)).Ok?
    ensures metas[0].isSigner && metas[0].key == LoadEscrow(Get(l, metas[1].key)).value.maker
  {
    var (a, l1) := RefundTryFrom(env, l, metas).value;
    var escrow := a.escrow.key;
    var e := LoadEscrow(Get(l1, escrow)).value;
    // The record read after setup is the one the ledger held before it, in an
    // account this program owned.
    assert Get(l1, escrow).record == Get(l, escrow).record;
    var seeds := EscrowSignerSeeds(a.maker.key, e.seed, e.bump);
    var signers := CpiSigners(env, metas, Some(seeds)).value;
    var amount := TokenAmountOf(a.vault.key, l1).value;
    assert TokenTransfer(l1, signers, a.vault.key, a.makerAtaA.key, escrow, amount).Ok?;
    assert env.createPda(seeds, PROGRAM_ID) == Some(escrow);
    SignerSeedsDetermineEscrow(a.maker.key, e.seed, e.bump, e.maker, e.seed, e.bump);
  }

  /** Take pays the recorded maker: when the named escrow is bound and
      address derivation is injective, a successful Take names in its maker
      slot exactly the maker its escrow records, so the vault's lamports reach
      that maker. */
  lemma TakeNamesRecordedMaker(env: Env, l: Ledger, metas: seq<Meta>)
    requires EscrowDerivationInjective(env)
    requires |metas| == TAKE_SLOTS && EscrowBoundAt(env, metas[2].key, Get(l, metas[2].key))
    requires TakeInstruction(env, l, metas).Ok?
    ensures LoadEscrow(Get(l, metas[2].key)).Ok?
    ensures metas[1].key == LoadEscrow(Get(l, metas[2].key)).value.maker
  {
    var (a, l1) := TakeTryFrom(env, l, metas).value;
    var escrow := a.escrow.key;
    var (e, seeds) := Authenticate(env, l1, a).value;
    assert Get(l1, escrow).record == Get(l, escrow).record;
    SignerSeedsDetermineEscrow(a.maker.key, e.seed, e.bump, e.maker, e.seed, e.bump);
  }

  /** The corrected Take pays the recorded maker in the recorded mint: when
      the named escrow is bound and derivation is injective, the maker's
      mint-B account of a successful corrected Take is the recorded maker's
      associated account for the recorded mint B, and it gains exactly the
      recorded amount. */
  lemma TakeCorrectedPaysRecordedMaker(env: Env, l: Ledger, metas: seq<Meta>)
    requires EscrowDerivationInjective(env) && HoldingsOwned(l)
    requires |metas| == TAKE_SLOTS && AllDistinct(TakeParties(metas))
    requires EscrowBoundAt(env, metas[2].key, Get(l, metas[2].key))
    requires TakeInstructionCorrected(env, l, metas).Ok?
    ensures LoadEscrow(Get(l, metas[2].key)).Ok?
    ensures var e := LoadEscrow(Get(l, metas[2].key)).value;
      var l' := TakeInstructionCorrected(env, l, metas).value;
      && metas[1].key == e.maker
      && metas[8].key == AtaAddress(env, e.maker, metas[10].key, e.mintB)
      && Amount(l', metas[8].key) == Amount(l, metas[8].key) + e.receive
  {
    TakeCorrectedPaysMaker(env, l, metas);
    var e := LoadEscrow(Get(l, metas[2].key)).value;
    SignerSeedsDetermineEscrow(metas[1].key, e.seed, e.bump, e.maker, e.seed, e.bump);
  }

  /** A closed escrow cannot be settled: Take and Refund naming an address
      that holds no account both fail. */
  lemma ClosedEscrowRefused(env: Env, l: Ledger, takeMetas: seq<Meta>, refundMetas: seq<Meta>)
    requires |takeMetas| == TAKE_SLOTS ==> Get(l, takeMetas[2].key) == EMPTY
    requires |refundMetas| == REFUND_SLOTS ==> Get(l, refundMetas[1].key) == EMPTY
    ensures TakeInstruction(env, l, takeMetas).Err? && TakeInstructionCorrected(env, l, takeMetas).Err?
    ensures RefundInstruction(env, l, refundMetas).Err?
  {
    if |takeMetas| == TAKE_SLOTS {
      var checks := TakeChecks(env, l, takeMetas);
      assert checks[1].Fail?;
    }
    if |refundMetas| == REFUND_SLOTS {
      var checks := RefundChecks(env, l, refundMetas);
      assert checks[1].Fail?;
    }
  }

  /** On the given ledger, every Take, in either form, that names `escrow`
      fails, and so does every Refund that names it. */
  predicate SettlementRefused(env: Env, l: Ledger, escrow: Address, takeMetas: seq<Meta>, refundMetas: seq<Meta>)
    requires |takeMetas| == TAKE_SLOTS && |refundMetas| == REFUND_SLOTS
  {
    && (takeMetas[2].key == escrow ==>
          TakeInstruction(env, l, takeMetas).Err? && TakeInstructionCorrected(env, l, takeMetas).Err?)
    && (refundMetas[1].key == escrow ==> RefundInstruction(env, l, refundMetas).Err?)
  }

  /** Once `escrow` holds no account, every Take and Refund naming it fails. */
  lemma EmptyEscrowRefused(env: Env, l: Ledger, escrow: Address, takeMetas: seq<Meta>, refundMetas: seq<Meta>)
    requires |takeMetas| == TAKE_SLOTS && |refundMetas| == REFUND_SLOTS
    requires Get(l, escrow) == EMPTY
    ensures SettlementRefused(env, l, escrow, takeMetas, refundMetas)
  {
    var tm: seq<Meta> := if takeMetas[2].key == escrow then takeMetas else [];
    var rm: seq<Meta> := if refundMetas[1].key == escrow then refundMetas else [];
    ClosedEscrowRefused(env, l, tm, rm);
  }

  /** An escrow is settled at most once: after a successful Take, as written
      or corrected, or a successful Refund, every Take and every Refund naming
      the same escrow fails. */
  lemma SettledAtMostOnce(env: Env, l: Ledger, metas: seq<Meta>, takeMetas: seq<Meta>, refundMetas: seq<Meta>)
    requires |takeMetas| == TAKE_SLOTS && |refundMetas| == REFUND_SLOTS
    ensures TakeInstruction(env, l, metas).Ok? ==>
      SettlementRefused(env, TakeInstruction(env, l, metas).value, metas[2].key, takeMetas, refundMetas)
    ensures TakeInstructionCorrected(env, l, metas).Ok? ==>
      SettlementRefused(env, TakeInstructionCorrected(env, l, metas).value, metas[2].key, takeMetas, refundMetas)
    ensures RefundInstruction(env, l, metas).Ok? ==>
      SettlementRefused(env, RefundInstruction(env, l, metas).value, metas[1].key, takeMetas, refundMetas)
  {
    if TakeInstruction(env, l, metas).Ok? {
      EmptyEscrowRefused(env, TakeInstruction(env, l, metas).value, metas[2].key, takeMetas, refundMetas);
    }
    if TakeInstructionCorrected(env, l, metas).Ok? {
      EmptyEscrowRefused(env, TakeInstructionCorrected(env, l, metas).value, metas[2].key, takeMetas, refundMetas);
    }
    if RefundInstruction(env, l, metas).Ok? {
      EmptyEscrowRefused(env, RefundInstruction(env, l, metas).value, metas[1].key, takeMetas, refundMetas);
    }
  }
}

=== FILE: make.dfy ===
/** Make: open an escrow.  The maker names a seed, the amount of token B they
    want and the amount of token A they lock; the program creates the escrow
    account at its derived address, creates the vault as the escrow's
    associated token account for mint A, records the terms and moves the
    locked amount from the maker into the vault. */
module MakeIx {
  import opened Types
  import opened Bytes
  import opened Ledger
  import opened Cpi
  import opened Checks
  import opened Capabilities

  /** The account list of Make, by position.  A ninth, trailing slot is
      required but never read. */
  datatype MakeAccounts = MakeAccounts(
    maker: Meta, escrow: Meta, mintA: Meta, mintB: Meta, makerAtaA: Meta,
    vault: Meta, systemProgram: Meta, tokenProgram: Meta)

  /** The account conditions Make's validation enforces, stated directly on
      the ledger. */
  ghost predicate MakeAccountsValid(env: Env, l: Ledger, metas: seq<Meta>)
    requires |metas| == 9
  {
    var maker, escrow, mintA, mintB, makerAtaA, vault, tokenProgram :=
      metas[0], metas[1], metas[2], metas[3], metas[4], metas[5], metas[7];
    && maker.isSigner
    && Get(l, mintA.key).owner == TOKEN_PROGRAM && |Get(l, mintA.key).data| == MINT_LEN
    && Get(l, mintB.key).owner == TOKEN_PROGRAM && |Get(l, mintB.key).data| == MINT_LEN
    && Get(l, makerAtaA.key).owner == TOKEN_PROGRAM && |Get(l, makerAtaA.key).data| == TOKEN_ACCOUNT_LEN
    && makerAtaA.key == AtaAddress(env, maker.key, tokenProgram.key, mintA.key)
    && vault.key == AtaAddress(env, escrow.key, TOKEN_PROGRAM, mintA.key)
    && |Get(l, vault.key).data| == 0
  }

  /** Make's account validations, in the order they run: the maker signed
      (an unsigned maker is reported as IllegalOwner), both mints are classic
      mints, the maker's account is their associated account for mint A, the
      vault sits at the escrow's classic associated address for mint A (else
      InvalidAccountOwner), and the vault holds no data yet (else
      AccountAlreadyInitialized). */
  function MakeChecks(env: Env, l: Ledger, metas: seq<Meta>): seq<Outcome>
    requires |metas| == 9
  {
    var maker, escrow, mintA, mintB, makerAtaA, vault, tokenProgram :=
      metas[0], metas[1], metas[2], metas[3], metas[4], metas[5], metas[7];
    [ if maker.isSigner then Pass else Fail(IllegalOwner),
      MintCheck(ViewOf(l, mintA)),
      MintCheck(ViewOf(l, mintB)),
      AtaCheck(env, ViewOf(l, makerAtaA), ViewOf(l, maker), ViewOf(l, mintA), ViewOf(l, tokenProgram)),
      if vault.key != AtaAddress(env, escrow.key, TOKEN_PROGRAM, mintA.key) then Fail(InvalidAccountOwner) else Pass,
      if |Get(l, vault.key).data| != 0 then Fail(AccountAlreadyInitialized) else Pass ]
  }

  /** Destructure and validate Make's account list: the wrong count fails
      with NotEnoughAccountKeys, otherwise the result is the first failing
      check.  Success holds exactly when the account conditions hold.  Nothing
      here compares the escrow with its derived address. */
  function MakeAccountsFrom(env: Env, l: Ledger, metas: seq<Meta>): (r: Result<MakeAccounts>)
    ensures |metas| != 9 ==> r == Err(NotEnoughAccountKeys)
    ensures |metas| == 9 ==>
      && (r.Ok? <==> FirstFailure(MakeChecks(env, l, metas)).Pass?)
      && (r.Err? ==> r.error == FirstFailure(MakeChecks(env, l, metas)).error)
    ensures |metas| == 9 && !metas[0].isSigner ==> r == Err(IllegalOwner)
    ensures r.Ok? <==> |metas| == 9 && MakeAccountsValid(env, l, metas)
    ensures r.Ok? ==>
      r.value == MakeAccounts(metas[0], metas[1], metas[2], metas[3], metas[4], metas[5], metas[6], metas[7])
  {
    if |metas| != 9 then Err(NotEnoughAccountKeys)
    else
      var maker, escrow, mintA, mintB, makerAtaA, vault, systemProgram, tokenProgram :=
        metas[0], metas[1], metas[2], metas[3], metas[4], metas[5], metas[6], metas[7];
      var checks := MakeChecks(env, l, metas);
      assert FirstFailure(checks) == FirstFailure(checks[0..]);
      :- checks[0];
      assert FirstFailure(checks) == FirstFailure(checks[1..]);
      :- checks[1];
      assert FirstFailure(checks) == FirstFailure(checks[2..]);
      :- checks[2];
      assert FirstFailure(checks) == FirstFailure(checks[3..]);
      :- checks[3];
      assert FirstFailure(checks) == FirstFailure(checks[4..]);
      :- checks[4];
      assert FirstFailure(checks) == FirstFailure(checks[5..]);
      :- checks[5];
      Ok(MakeAccounts(maker, escrow, mintA, mintB, makerAtaA, vault, systemProgram, tokenProgram))
  }

  /** Make's payload. */
  datatype MakeData = MakeData(seed: u64, receive: u64, amount: u64)

  /** The 24-byte payload layout: seed, receive and amount as little-endian u64s. */
  function EncodeMakeData(d: MakeData): (r: seq<u8>)
    ensures |r| == 24
  {
    U64ToLe(d.seed) + U64ToLe(d.receive) + U64ToLe(d.amount)
  }

  /** Parse the payload: exactly 24 bytes and a nonzero amount, else
      InvalidInstructionData. */
  function ParseMakeData(data: seq<u8>): (r: Result<MakeData>)
    ensures |data| != 24 ==> r == Err(InvalidInstructionData)
    ensures r.Err? ==> r.error == InvalidInstructionData
    ensures r.Ok? ==> r.value.amount != 0 && EncodeMakeData(r.value) == data
  {
    if |data| != 24 then Err(InvalidInstructionData)
    else
      var seed := U64FromLe(data[0..8]);
      var receive := U64FromLe(data[8..16]);
      var amount := U64FromLe(data[16..24]);
      if amount == 0 then Err(InvalidInstructionData)
      else
        assert data == data[0..8] + data[8..16] + data[16..24];
        Ok(MakeData(seed, receive, amount))
  }

  /** Encoding a payload and parsing it returns it unchanged, unless its amount
      is zero, which parsing rejects. */
  lemma MakeDataRoundTrip(d: MakeData)
    ensures d.amount != 0 ==> ParseMakeData(EncodeMakeData(d)) == Ok(d)
    ensures d.amount == 0 ==> ParseMakeData(EncodeMakeData(d)) == Err(InvalidInstructionData)
  {
    var b := EncodeMakeData(d);
    assert b[0..8] == U64ToLe(d.seed);
    assert b[8..16] == U64ToLe(d.receive);
    assert b[16..24] == U64ToLe(d.amount);
    U64RoundTrip(d.seed);
    U64RoundTrip(d.receive);
    U64RoundTrip(d.amount);
  }

  /** A validated Make: its accounts, its payload and the escrow's canonical bump. */
  datatype Make = Make(accounts: MakeAccounts, data: MakeData, bump: u8)

  /** The canonical bump of the escrow of (maker, seed). */
  function EscrowBump(env: Env, maker: Address, seed: u64): u8 {
    env.findPda(EscrowSeeds(maker, seed), PROGRAM_ID).1
  }

  /** Make's validation and account creation: accounts first, then the
      payload, then the escrow account (signed for by its derived address) and
      the vault (an associated account owned by the escrow), both paid by the
      maker. */
  function MakeTryFrom(env: Env, l: Ledger, metas: seq<Meta>, payload: seq<u8>): (r: Result<(Make, Ledger)>)
    ensures MakeAccountsFrom(env, l, metas).Err? ==> r == Err(MakeAccountsFrom(env, l, metas).error)
    ensures MakeAccountsFrom(env, l, metas).Ok? && ParseMakeData(payload).Err? ==> r == Err(InvalidInstructionData)
    ensures r.Ok? ==> var (m, l2) := r.value;
      && MakeAccountsFrom(env, l, metas) == Ok(m.accounts)
      && ParseMakeData(payload) == Ok(m.data)
      && m.bump == EscrowBump(env, m.accounts.maker.key, m.data.seed)
    ensures r.Ok? ==> RecordsKept(l, r.value.1)
  {
    var accounts :- MakeAccountsFrom(env, l, metas);
    var data :- ParseMakeData(payload);
    var bump := EscrowBump(env, accounts.maker.key, data.seed);
    var signers :- CpiSigners(env, metas, Some(EscrowSignerSeeds(accounts.maker.key, data.seed, bump)));
    var l1 :- CreateWithMinimumBalance(env, l, signers, accounts.maker.key, accounts.escrow.key, ESCROW_LEN, PROGRAM_ID);
    var l2 :- AtaInit(env, l1, metas, accounts.vault, accounts.mintA, accounts.maker, accounts.escrow,
                      accounts.systemProgram, accounts.tokenProgram);
    RecordsKeptTrans(l, l1, l2);
    Ok((Make(accounts, data, bump), l2))
  }

  /** Make's effect: record (seed, maker, mint A, mint B, receive, bump) in the
      escrow, then move `amount` of token A from the maker's account to the
      vault on the maker's own signature. */
  function MakeProcess(l: Ledger, metas: seq<Meta>, m: Make): (r: Result<Ledger>)
  {
    var a := m.accounts;
    var l1 :- StoreEscrow(l, a.escrow.key, Escrow(m.data.seed, a.maker.key, a.mintA.key, a.mintB.key, m.data.receive, m.bump));
    TokenTransfer(l1, TxSigners(metas), a.makerAtaA.key, a.vault.key, a.maker.key, m.data.amount)
  }

  function MakeInstruction(env: Env, l: Ledger, metas: seq<Meta>, payload: seq<u8>): (r: Result<Ledger>)
    ensures MakeAccountsFrom(env, l, metas).Err? ==> r == Err(MakeAccountsFrom(env, l, metas).error)
    ensures MakeAccountsFrom(env, l, metas).Ok? && ParseMakeData(payload).Err? ==> r == Err(InvalidInstructionData)
  {
    var (m, l1) :- MakeTryFrom(env, l, metas, payload);
    MakeProcess(l1, metas, m)
  }

  /** The record Make writes for its accounts and payload. */
  function MadeRecord(env: Env, metas: seq<Meta>, d: MakeData): Escrow
    requires |metas| == 9
  {
    Escrow(d.seed, metas[0].key, metas[2].key, metas[3].key, d.receive, EscrowBump(env, metas[0].key, d.seed))
  }

  /** Make's setup step: the escrow is created record-sized and owned by this
      program, with no record yet; the vault is created as an empty holding of
      mint A with the escrow as authority; the maker's account for mint A is
      neither of them and keeps its balance; nothing but the maker, the
      escrow and the vault changes. */
  lemma MakeSetupEffects(env: Env, l: Ledger, metas: seq<Meta>, payload: seq<u8>)
    requires MakeTryFrom(env, l, metas, payload).Ok?
    ensures |metas| == 9
    ensures var (m, l2) := MakeTryFrom(env, l, metas, payload).value;
      var maker, escrow, mintA, makerAtaA, vault := metas[0].key, metas[1].key, metas[2].key, metas[4].key, metas[5].key;
      && m.accounts == MakeAccounts(metas[0], metas[1], metas[2], metas[3], metas[4], metas[5], metas[6], metas[7])
      && makerAtaA != vault && makerAtaA != escrow && escrow != vault
      && Get(l2, escrow).owner == PROGRAM_ID && |Get(l2, escrow).data| == ESCROW_LEN
      && Get(l2, vault).holding == Some(Holding(mintA, escrow, 0))
      && Get(l2, makerAtaA) == Get(l, makerAtaA)
      && (forall x :: x != maker && x != escrow && x != vault ==> Get(l2, x) == Get(l, x))
      && (escrow !in TxSigners(metas) ==>
            env.createPda(EscrowSignerSeeds(maker, m.data.seed, m.bump), PROGRAM_ID) == Some(escrow))
  {
    var (m, l2) := MakeTryFrom(env, l, metas, payload).value;
    var a := m.accounts;
    var d := m.data;
    var seeds := EscrowSignerSeeds(a.maker.key, d.seed, m.bump);
    var signers := CpiSigners(env, metas, Some(seeds)).value;
    var l1 := CreateWithMinimumBalance(env, l, signers, a.maker.key, a.escrow.key, ESCROW_LEN, PROGRAM_ID).value;
    assert l2 == AtaInit(env, l1, metas, a.vault, a.mintA, a.maker, a.escrow, a.systemProgram, a.tokenProgram).value;
    // The maker's token account has data and the vault had none, so they differ;
    // the escrow was unused and the vault creation needs an unused account.
    assert a.makerAtaA.key != a.vault.key;
    assert a.makerAtaA.key != a.escrow.key;
    assert a.escrow.key != a.vault.key;
  }

  /** Make's processing between distinct escrow, vault and maker's account:
      the escrow gains exactly the record, the vault's empty holding gains
      `amount`, the maker's account loses it, and nothing else changes. */
  lemma MakeProcessEffects(l: Ledger, metas: seq<Meta>, m: Make)
    requires |metas| == 9
    requires m.accounts == MakeAccounts(metas[0], metas[1], metas[2], metas[3], metas[4], metas[5], metas[6], metas[7])
    requires metas[4].key != metas[5].key && metas[4].key != metas[1].key && metas[1].key != metas[5].key
    requires Get(l, metas[5].key).holding == Some(Holding(metas[2].key, metas[1].key, 0))
    requires MakeProcess(l, metas, m).Ok?
    ensures var l' := MakeProcess(l, metas, m).value;
      var maker, escrow, mintA, mintB, makerAtaA, vault :=
        metas[0].key, metas[1].key, metas[2].key, metas[3].key, metas[4].key, metas[5].key;
      && Get(l', escrow) == Get(l, escrow).(record := Some(Escrow(m.data.seed, maker, mintA, mintB, m.data.receive, m.bump)))
      && Get(l', vault).holding == Some(Holding(mintA, escrow, m.data.amount))
      && Amount(l', makerAtaA) == Amount(l, makerAtaA) - m.data.amount
      && (forall x :: x != escrow && x != vault && x != makerAtaA ==> Get(l', x) == Get(l, x))
  {
    var a := m.accounts;
    var e := Escrow(m.data.seed, a.maker.key, a.mintA.key, a.mintB.key, m.data.receive, m.bump);
    var l1 := StoreEscrow(l, a.escrow.key, e).value;
    assert Amount(l1, a.makerAtaA.key) == Amount(l, a.makerAtaA.key);
    assert Amount(l1, a.vault.key) == 0;
  }

  /** A successful Make leaves: the escrow owned by this program, record-sized,
      holding exactly (seed, maker, mint A, mint B, receive, canonical bump),
      which a later load reads back unchanged; the vault an associated holding
      of mint A with the escrow as authority and exactly `amount` in it; the
      maker's account `amount` poorer; and every account other than the
      maker, the escrow, the vault and the maker's account untouched.  Unless
      the escrow itself signed the transaction, its address is the one the
      escrow seeds and bump derive. */
  lemma MakeEffects(env: Env, l: Ledger, metas: seq<Meta>, payload: seq<u8>)
    requires MakeInstruction(env, l, metas, payload).Ok?
    ensures |metas| == 9 && ParseMakeData(payload).Ok?
    ensures var l' := MakeInstruction(env, l, metas, payload).value;
      var d := ParseMakeData(payload).value;
      var maker, escrow, mintA, makerAtaA, vault := metas[0].key, metas[1].key, metas[2].key, metas[4].key, metas[5].key;
      var e := MadeRecord(env, metas, d);
      && Get(l', escrow).owner == PROGRAM_ID
      && ProgramAccountCheck(View(escrow, false, Get(l', escrow))).Pass?
      && Get(l', escrow).record == Some(e)
      && LoadEscrow(Get(l', escrow)) == Ok(e)
      && Get(l', vault).holding == Some(Holding(mintA, escrow, d.amount))
      && Amount(l', makerAtaA) == Amount(l, makerAtaA) - d.amount
      && (forall x :: x != maker && x != escrow && x != vault && x != makerAtaA ==> Get(l', x) == Get(l, x))
      && (escrow !in TxSigners(metas) ==>
            env.createPda(EscrowSignerSeeds(maker, d.seed, e.bump), PROGRAM_ID) == Some(escrow))
  {
    MakeSetupEffects(env, l, metas, payload);
    var (m, l2) := MakeTryFrom(env, l, metas, payload).value;
    assert MakeInstruction(env, l, metas, payload) == MakeProcess(l2, metas, m);
    MakeProcessEffects(l2, metas, m);
  }

  /** A successful Make was given the classic token program: the vault is
      derived with it, and the vault's creation derives with the one supplied. */
  lemma MakeUsesClassicToken(env: Env, l: Ledger, metas: seq<Meta>, payload: seq<u8>)
    requires AtaDerivationInjective(env)
    requires MakeInstruction(env, l, metas, payload).Ok?
    ensures |metas| == 9 && metas[7].key == TOKEN_PROGRAM
  {
    var (m, l2) := MakeTryFrom(env, l, metas, payload).value;
    var a := m.accounts;
    var seeds := EscrowSignerSeeds(a.maker.key, m.data.seed, m.bump);
    var signers := CpiSigners(env, metas, Some(seeds)).value;
    var l1 := CreateWithMinimumBalance(env, l, signers, a.maker.key, a.escrow.key, ESCROW_LEN, PROGRAM_ID).value;
    assert AtaInit(env, l1, metas, a.vault, a.mintA, a.maker, a.escrow, a.systemProgram, a.tokenProgram).Ok?;
    assert AtaAddress(env, a.escrow.key, a.tokenProgram.key, a.mintA.key)
        == AtaAddress(env, a.escrow.key, TOKEN_PROGRAM, a.mintA.key);
  }
}

=== FILE: refund.dfy ===
/** Refund: the maker cancels an open escrow.  Everything in the vault
    returns to the maker's mint-A account, the vault is closed to the maker,
    and the escrow is decommissioned with its lamports going to the maker. */
module RefundIx {
  import opened Types
  import opened Ledger
  import opened Cpi
  import opened Checks
  import opened Capabilities

  /** The account list of Refund, by position.  An eighth, trailing slot is
      required but never read. */
  datatype RefundAccounts = RefundAccounts(
    maker: Meta, escrow: Meta, mintA: Meta, vault: Meta, makerAtaA: Meta, systemProgram: Meta, tokenProgram: Meta)

  const REFUND_SLOTS := 8

  /** Refund's account validations, in the order they run: the maker signed,
      the escrow is a record-sized program account, mint A is a mint of either
      standard, and the vault is the escrow's associated account for mint A. */
  function RefundChecks(env: Env, l: Ledger, metas: seq<Meta>): seq<Outcome>
    requires |metas| == REFUND_SLOTS
  {
    var maker, escrow, mintA, vault, tokenProgram :=
      ViewOf(l, metas[0]), ViewOf(l, metas[1]), ViewOf(l, metas[2]), ViewOf(l, metas[3]), ViewOf(l, metas[6]);
    [ SignerCheck(maker),
      ProgramAccountCheck(escrow),
      MintInterfaceCheck(mintA),
      AtaCheck(env, vault, escrow, mintA, tokenProgram) ]
  }

  /** Destructure and validate Refund's account list: the wrong count fails
      with NotEnoughAccountKeys, otherwise the result is the first failing
      check.  Nothing here ties the signing maker to the escrow's record. */
  function RefundAccountsFrom(env: Env, l: Ledger, metas: seq<Meta>): (r: Result<RefundAccounts>)
    ensures |metas| != REFUND_SLOTS ==> r == Err(NotEnoughAccountKeys)
    ensures |metas| == REFUND_SLOTS ==>
      && (r.Ok? <==> FirstFailure(RefundChecks(env, l, metas)).Pass?)
      && (r.Err? ==> r.error == FirstFailure(RefundChecks(env, l, metas)).error)
    ensures |metas| == REFUND_SLOTS && !metas[0].isSigner ==> r == Err(MissingRequiredSignature)
    ensures r.Ok? ==>
      && r.value == RefundAccounts(metas[0], metas[1], metas[2], metas[3], metas[4], metas[5], metas[6])
      && metas[0].isSigner
      && Get(l, metas[1].key).owner == PROGRAM_ID && |Get(l, metas[1].key).data| == ESCROW_LEN
      && Get(l, metas[3].key).owner == TOKEN_PROGRAM
      && metas[3].key == AtaAddress(env, metas[1].key, metas[6].key, metas[2].key)
  {
    if |metas| != REFUND_SLOTS then Err(NotEnoughAccountKeys)
    else
      var maker, escrow, mintA, vault, makerAtaA, systemProgram, tokenProgram :=
        metas[0], metas[1], metas[2], metas[3], metas[4], metas[5], metas[6];
      var checks := RefundChecks(env, l, metas);
      assert FirstFailure(checks) == FirstFailure(checks[0..]);
      :- checks[0];
      assert FirstFailure(checks) == FirstFailure(checks[1..]);
      :- checks[1];
      assert FirstFailure(checks) == FirstFailure(checks[2..]);
      :- checks[2];
      assert FirstFailure(checks) == FirstFailure(checks[3..]);
      :- checks[3];
      Ok(RefundAccounts(maker, escrow, mintA, vault, makerAtaA, systemProgram, tokenProgram))
  }

  /** Refund's validation and account creation: the maker's mint-A account is
      created if needed, with the maker as both payer and owner. */
  function RefundTryFrom(env: Env, l: Ledger, metas: seq<Meta>): (r: Result<(RefundAccounts, Ledger)>)
    ensures RefundAccountsFrom(env, l, metas).Err? ==> r == Err(RefundAccountsFrom(env, l, metas).error)
    ensures r.Ok? ==> RefundAccountsFrom(env, l, metas) == Ok(r.value.0)
    ensures r.Ok? ==> RecordsKept(l, r.value.1)
    ensures r.Ok? ==> forall x :: x != metas[0].key && x != metas[4].key ==> Get(r.value.1, x) == Get(l, x)
    ensures r.Ok? && HoldingsOwned(l) ==> HoldingsOwned(r.value.1) && forall x :: Amount(r.value.1, x) == Amount(l, x)
    ensures r.Ok? && metas[4].key != metas[0].key && Get(r.value.1, metas[4].key) != Get(l, metas[4].key) ==>
      && metas[4].key == AtaAddress(env, metas[0].key, metas[6].key, metas[2].key)
      && Get(r.value.1, metas[4].key).holding == Some(Holding(metas[2].key, metas[0].key, 0))
  {
    var a :- RefundAccountsFrom(env, l, metas);
    var l1 :- AtaInitIfNeeded(env, l, metas, a.makerAtaA, a.mintA, a.maker, a.maker, a.systemProgram, a.tokenProgram);
    Ok((a, l1))
  }

  /** Refund's processing: load the record and, without re-deriving the
      escrow's address, sign with the seeds built from the SUPPLIED maker and
      the recorded seed and bump; return the vault's whole balance to the
      maker's mint-A account, close the vault to the maker, and decommission
      the escrow to the maker. */
  function RefundProcess(env: Env, l: Ledger, metas: seq<Meta>, a: RefundAccounts): (r: Result<Ledger>)
    ensures LoadEscrow(Get(l, a.escrow.key)).Err? ==> r == Err(InvalidAccountData)
    ensures r.Ok? ==> LoadEscrow(Get(l, a.escrow.key)).Ok? && RecordsKept(l, r.value)
    ensures r.Ok? ==> Get(r.value, a.escrow.key) == EMPTY
  {
    var e :- LoadEscrow(Get(l, a.escrow.key));
    var seeds := EscrowSignerSeeds(a.maker.key, e.seed, e.bump);
    var signers :- CpiSigners(env, metas, Some(seeds));
    var amount :- TokenAmountOf(a.vault.key, l);
    var l1 :- TokenTransfer(l, signers, a.vault.key, a.makerAtaA.key, a.escrow.key, amount);
    var l2 :- TokenCloseAccount(l1, signers, a.vault.key, a.maker.key, a.escrow.key);
    var l3 :- ProgramAccountClose(l2, a.escrow.key, a.maker.key);
    RecordsKeptTrans(l, l1, l2);
    RecordsKeptTrans(l, l2, l3);
    Ok(l3)
  }

  /** Refund as dispatched: validation and account creation, then processing. */
  function RefundInstruction(env: Env, l: Ledger, metas: seq<Meta>): (r: Result<Ledger>)
    ensures RefundAccountsFrom(env, l, metas).Err? ==> r == Err(RefundAccountsFrom(env, l, metas).error)
    ensures r.Ok? ==> RecordsKept(l, r.value)
    ensures r.Ok? ==> |metas| == REFUND_SLOTS && Get(r.value, metas[1].key) == EMPTY
  {
    var (a, l1) :- RefundTryFrom(env, l, metas);
    var r :- RefundProcess(env, l1, metas, a);
    RecordsKeptTrans(l, l1, r);
    Ok(r)
  }

  /** The four accounts Refund moves value between: maker, escrow, vault and
      the maker's mint-A account. */
  function RefundParties(metas: seq<Meta>): seq<Address>
    requires |metas| == REFUND_SLOTS
  {
    [metas[0].key, metas[1].key, metas[3].key, metas[4].key]
  }

  /** A successful refund processing between four distinct accounts: the
      vault was held by the escrow, which authorised its emptying either by
      signing the transaction itself or as the address the supplied maker's
      seeds derive; the vault's whole balance reaches the maker's mint-A
      account; vault and escrow cease to exist with all their lamports going
      to the maker; nothing else changes. */
  lemma RefundProcessEffects(env: Env, l: Ledger, metas: seq<Meta>, a: RefundAccounts)
    requires |metas| == REFUND_SLOTS
    requires a == RefundAccounts(metas[0], metas[1], metas[2], metas[3], metas[4], metas[5], metas[6])
    requires AllDistinct(RefundParties(metas))
    requires RefundProcess(env, l, metas, a).Ok?
    ensures var l' := RefundProcess(env, l, metas, a).value;
      var maker, escrow, vault, makerAtaA := metas[0].key, metas[1].key, metas[3].key, metas[4].key;
      var e := LoadEscrow(Get(l, escrow)).value;
      && Get(l, vault).holding.Some? && Get(l, vault).holding.value.authority == escrow
      && (escrow in TxSigners(metas) ||
          env.createPda(EscrowSignerSeeds(maker, e.seed, e.bump), PROGRAM_ID) == Some(escrow))
      && Amount(l', makerAtaA) == Amount(l, makerAtaA) + Amount(l, vault)
      && Get(l', vault) == EMPTY && Get(l', escrow) == EMPTY
      && Lamports(l', maker) == Lamports(l, maker) + Lamports(l, vault) + Lamports(l, escrow)
      && (forall x :: x !in RefundParties(metas) ==> Get(l', x) == Get(l, x))
  {
    var ps := RefundParties(metas);
    var maker, escrow, vault, makerAtaA := ps[0], ps[1], ps[2], ps[3];
    assert maker != escrow && maker != vault && maker != makerAtaA;
    assert escrow != vault && escrow != makerAtaA && vault != makerAtaA;
    var e := LoadEscrow(Get(l, escrow)).value;
    var signers := CpiSigners(env, metas, Some(EscrowSignerSeeds(maker, e.seed, e.bump))).value;
    var amount := TokenAmountOf(vault, l).value;
    var l1 := TokenTransfer(l, signers, vault, makerAtaA, escrow, amount).value;
    var l2 := TokenCloseAccount(l1, signers, vault, maker, escrow).value;
    assert Amount(l2, makerAtaA) == Amount(l, makerAtaA) + Amount(l, vault);
    assert Lamports(l2, maker) == Lamports(l, maker) + Lamports(l, vault);
  }

  /** A successful Refund between four distinct accounts, on a ledger where
      only program-owned accounts carry holdings: the vault's whole balance
      returns to the maker's mint-A account, measured against the ledger
      before the instruction; vault and escrow cease to exist, their lamports
      reaching the maker; the escrow's signature came from the supplied
      maker's seeds unless the escrow signed the transaction; nothing outside
      the four accounts changes. */
  lemma RefundEffects(env: Env, l: Ledger, metas: seq<Meta>)
    requires |metas| == REFUND_SLOTS && AllDistinct(RefundParties(metas))
    requires HoldingsOwned(l)
    requires RefundInstruction(env, l, metas).Ok?
    ensures var l' := RefundInstruction(env, l, metas).value;
      var maker, escrow, vault, makerAtaA := metas[0].key, metas[1].key, metas[3].key, metas[4].key;
      && LoadEscrow(Get(l, escrow)).Ok?
      && var e := LoadEscrow(Get(l, escrow)).value;
      && (escrow in TxSigners(metas) ||
          env.createPda(EscrowSignerSeeds(maker, e.seed, e.bump), PROGRAM_ID) == Some(escrow))
      && Amount(l', makerAtaA) == Amount(l, makerAtaA) + Amount(l, vault)
      && Get(l', vault) == EMPTY && Get(l', escrow) == EMPTY
      && Lamports(l', maker) >= Lamports(l, vault) + Lamports(l, escrow)
      && (forall x :: x !in RefundParties(metas) ==> Get(l', x) == Get(l, x))
  {
    var (a, l1) := RefundTryFrom(env, l, metas).value;
    var ps := RefundParties(metas);
    var maker, escrow, vault, makerAtaA := ps[0], ps[1], ps[2], ps[3];
    assert maker != escrow && maker != vault && makerAtaA != escrow && makerAtaA != vault;
    assert Get(l1, escrow) == Get(l, escrow) && Get(l1, vault) == Get(l, vault);
    var l' := RefundProcess(env, l1, metas, a).value;
    assert RefundInstruction(env, l, metas) == Ok(l');
    RefundProcessEffects(env, l1, metas, a);
    assert forall x :: x !in ps ==> Get(l1, x) == Get(l, x);
  }
}

=== FILE: take.dfy ===
/** Take: settle an escrow.  The taker receives everything in the vault, the
    vault is closed to the maker, the taker pays the recorded amount of token
    B into the maker's account, and the escrow is decommissioned with its
    lamports going to the taker. */
module TakeIx {
  import opened Types
  import opened Ledger
  import opened Cpi
  import opened Checks
  import opened Capabilities

  /** The account list of Take, by position.  A twelfth, trailing slot is
      required but never read. */
  datatype TakeAccounts = TakeAccounts(
    taker: Meta, maker: Meta, escrow: Meta, mintA: Meta, mintB: Meta, vault: Meta,
    takerAtaA: Meta, takerAtaB: Meta, makerAtaB: Meta, systemProgram: Meta, tokenProgram: Meta)

  const TAKE_SLOTS := 12

  /** Take's account validations, in the order they run: the taker signed,
      the escrow is a record-sized program account, both mints are mints of
      either standard, the taker's mint-B account is their associated account,
      and the vault is the escrow's associated account for mint A. */
  function TakeChecks(env: Env, l: Ledger, metas: seq<Meta>): seq<Outcome>
    requires |metas| == TAKE_SLOTS
  {
    var taker, escrow, mintA, mintB, vault, takerAtaB, tokenProgram :=
      ViewOf(l, metas[0]), ViewOf(l, metas[2]), ViewOf(l, metas[3]), ViewOf(l, metas[4]),
      ViewOf(l, metas[5]), ViewOf(l, metas[7]), ViewOf(l, metas[10]);
    [ SignerCheck(taker),
      ProgramAccountCheck(escrow),
      MintInterfaceCheck(mintA),
      MintInterfaceCheck(mintB),
      AtaCheck(env, takerAtaB, taker, mintB, tokenProgram),
      AtaCheck(env, vault, escrow, mintA, tokenProgram) ]
  }

  /** Destructure and validate Take's account list: the wrong count fails with
      NotEnoughAccountKeys, otherwise the result is the first failing check.
      The maker, the taker's mint-A account and the maker's mint-B account
      are not checked here. */
  function TakeAccountsFrom(env: Env, l: Ledger, metas: seq<Meta>): (r: Result<TakeAccounts>)
    ensures |metas| != TAKE_SLOTS ==> r == Err(NotEnoughAccountKeys)
    ensures |metas| == TAKE_SLOTS ==>
      && (r.Ok? <==> FirstFailure(TakeChecks(env, l, metas)).Pass?)
      && (r.Err? ==> r.error == FirstFailure(TakeChecks(env, l, metas)).error)
    ensures |metas| == TAKE_SLOTS && !metas[0].isSigner ==> r == Err(MissingRequiredSignature)
    ensures r.Ok? ==>
      && r.value == TakeAccounts(metas[0], metas[1], metas[2], metas[3], metas[4], metas[5],
                                 metas[6], metas[7], metas[8], metas[9], metas[10])
      && metas[0].isSigner
      && Get(l, metas[2].key).owner == PROGRAM_ID && |Get(l, metas[2].key).data| == ESCROW_LEN
      && Get(l, metas[5].key).owner == TOKEN_PROGRAM && Get(l, metas[7].key).owner == TOKEN_PROGRAM
      && metas[7].key == AtaAddress(env, metas[0].key, metas[10].key, metas[4].key)
      && metas[5].key == AtaAddress(env, metas[2].key, metas[10].key, metas[3].key)
  {
    if |metas| != TAKE_SLOTS then Err(NotEnoughAccountKeys)
    else
      var taker, maker, escrow, mintA, mintB, vault, takerAtaA, takerAtaB, makerAtaB, systemProgram, tokenProgram :=
        metas[0], metas[1], metas[2], metas[3], metas[4], metas[5], metas[6], metas[7], metas[8], metas[9], metas[10];
      var checks := TakeChecks(env, l, metas);
      assert FirstFailure(checks) == FirstFailure(checks[0..]);
      :- checks[0];
      assert FirstFailure(checks) == FirstFailure(checks[1..]);
      :- checks[1];
      assert FirstFailure(checks) == FirstFailure(checks[2..]);
      :- checks[2];
      assert FirstFailure(checks) == FirstFailure(checks[3..]);
      :- checks[3];
      assert FirstFailure(checks) == FirstFailure(checks[4..]);
      :- checks[4];
      assert FirstFailure(checks) == FirstFailure(checks[5..]);
      :- checks[5];
      Ok(TakeAccounts(taker, maker, escrow, mintA, mintB, vault, takerAtaA, takerAtaB, makerAtaB, systemProgram, tokenProgram))
  }

  /** Take's validation and account creation as written: the taker's mint-A
      account and the maker's mint-B account are each created if needed, both
      paid by the taker, owned by the taker and the maker respectively — and
      each checked against the payer, the taker. */
  function TakeTryFrom(env: Env, l: Ledger, metas: seq<Meta>): (r: Result<(TakeAccounts, Ledger)>)
    ensures TakeAccountsFrom(env, l, metas).Err? ==> r == Err(TakeAccountsFrom(env, l, metas).error)
    ensures r.Ok? ==> TakeAccountsFrom(env, l, metas) == Ok(r.value.0)
    ensures r.Ok? ==> RecordsKept(l, r.value.1)
    ensures r.Ok? ==> forall x :: x != metas[0].key && x != metas[6].key && x != metas[8].key ==>
      Get(r.value.1, x) == Get(l, x)
    ensures r.Ok? && HoldingsOwned(l) ==> HoldingsOwned(r.value.1) && forall x :: Amount(r.value.1, x) == Amount(l, x)
    ensures (r.Ok? && metas[6].key != metas[0].key && metas[6].key != metas[8].key
             && Get(r.value.1, metas[6].key) != Get(l, metas[6].key)) ==>
      && metas[6].key == AtaAddress(env, metas[0].key, metas[10].key, metas[3].key)
      && Get(r.value.1, metas[6].key).holding == Some(Holding(metas[3].key, metas[0].key, 0))
    ensures (r.Ok? && metas[8].key != metas[0].key && metas[8].key != metas[6].key
             && Get(r.value.1, metas[8].key) != Get(l, metas[8].key)) ==>
      && metas[8].key == AtaAddress(env, metas[1].key, metas[10].key, metas[4].key)
      && Get(r.value.1, metas[8].key).holding == Some(Holding(metas[4].key, metas[1].key, 0))
  {
    var a :- TakeAccountsFrom(env, l, metas);
    var l1 :- AtaInitIfNeeded(env, l, metas, a.takerAtaA, a.mintA, a.taker, a.taker, a.systemProgram, a.tokenProgram);
    var l2 :- AtaInitIfNeeded(env, l1, metas, a.makerAtaB, a.mintB, a.taker, a.maker, a.systemProgram, a.tokenProgram);
    RecordsKeptTrans(l, l1, l2);
    Ok((a, l2))
  }

  /** Load the escrow's record and re-derive its address from the supplied
      maker and the recorded seed and bump: seeds deriving no address fail
      with InvalidSeeds, an address other than the supplied escrow with
      InvalidAccountOwner.  Returns the record and its signer seeds. */
  function Authenticate(env: Env, l: Ledger, a: TakeAccounts): (r: Result<(Escrow, seq<Seed>)>)
    ensures LoadEscrow(Get(l, a.escrow.key)).Err? ==> r == Err(InvalidAccountData)
    ensures r.Ok? ==>
      && LoadEscrow(Get(l, a.escrow.key)) == Ok(r.value.0)
      && r.value.1 == EscrowSignerSeeds(a.maker.key, r.value.0.seed, r.value.0.bump)
      && env.createPda(r.value.1, PROGRAM_ID) == Some(a.escrow.key)
    ensures LoadEscrow(Get(l, a.escrow.key)).Ok? ==>
      var e := LoadEscrow(Get(l, a.escrow.key)).value;
      var derived := env.createPda(EscrowSignerSeeds(a.maker.key, e.seed, e.bump), PROGRAM_ID);
      && (derived.None? ==> r == Err(InvalidSeeds))
      && (derived.Some? && derived.value != a.escrow.key ==> r == Err(InvalidAccountOwner))
  {
    var e :- LoadEscrow(Get(l, a.escrow.key));
    var seeds := EscrowSignerSeeds(a.maker.key, e.seed, e.bump);
    var key :- CreateProgramAddress(env, seeds);
    if key != a.escrow.key then Err(InvalidAccountOwner)
    else Ok((e, seeds))
  }

  /** Take's settlement once the escrow is authenticated: the vault's whole
      balance goes to the taker's mint-A account and the vault is closed to the
      maker, both on the escrow's signature; the taker pays `receive` of token
      B on their own signature; the escrow is decommissioned to the taker. */
  function TakeSettle(l: Ledger, metas: seq<Meta>, a: TakeAccounts, e: Escrow, signers: set<Address>): (r: Result<Ledger>)
    ensures r.Ok? ==> RecordsKept(l, r.value)
    ensures r.Ok? ==> Get(r.value, a.escrow.key) == EMPTY
  {
    var amount :- TokenAmountOf(a.vault.key, l);
    var l1 :- TokenTransfer(l, signers, a.vault.key, a.takerAtaA.key, a.escrow.key, amount);
    var l2 :- TokenCloseAccount(l1, signers, a.vault.key, a.maker.key, a.escrow.key);
    var l3 :- TokenTransfer(l2, TxSigners(metas), a.takerAtaB.key, a.makerAtaB.key, a.taker.key, e.receive);
    var l4 :- ProgramAccountClose(l3, a.escrow.key, a.taker.key);
    RecordsKeptTrans(l, l1, l2);
    RecordsKeptTrans(l, l2, l3);
    RecordsKeptTrans(l, l3, l4);
    Ok(l4)
  }

  /** Take's processing as written: authenticate the escrow, then settle. */
  function TakeProcess(env: Env, l: Ledger, metas: seq<Meta>, a: TakeAccounts): (r: Result<Ledger>)
    ensures Authenticate(env, l, a).Err? ==> r == Err(Authenticate(env, l, a).error)
    ensures r.Ok? ==> Authenticate(env, l, a).Ok? && RecordsKept(l, r.value)
    ensures r.Ok? ==> Get(r.value, a.escrow.key) == EMPTY
  {
    var (e, seeds) :- Authenticate(env, l, a);
    var signers :- CpiSigners(env, metas, Some(seeds));
    TakeSettle(l, metas, a, e, signers)
  }

  /** Take as dispatched: validation and account creation, then processing. */
  function TakeInstruction(env: Env, l: Ledger, metas: seq<Meta>): (r: Result<Ledger>)
    ensures TakeAccountsFrom(env, l, metas).Err? ==> r == Err(TakeAccountsFrom(env, l, metas).error)
    ensures r.Ok? ==> RecordsKept(l, r.value)
    ensures r.Ok? ==> |metas| == TAKE_SLOTS && Get(r.value, metas[2].key) == EMPTY
  {
    var (a, l1) :- TakeTryFrom(env, l, metas);
    var r :- TakeProcess(env, l1, metas, a);
    RecordsKeptTrans(l, l1, r);
    Ok(r)
  }

  /** The seven accounts Take moves value between, in slot order: taker,
      maker, escrow, vault, taker's mint-A account, taker's mint-B account,
      maker's mint-B account. */
  function TakeParties(metas: seq<Meta>): seq<Address>
    requires |metas| == TAKE_SLOTS
  {
    [metas[0].key, metas[1].key, metas[2].key, metas[5].key, metas[6].key, metas[7].key, metas[8].key]
  }

  /** A successful settlement between seven distinct accounts: the vault's
      whole balance reaches the taker's mint-A account, exactly `receive` of
      token B moves from the taker's to the maker's mint-B account, the vault
      and the escrow cease to exist, the maker receives the vault's lamports
      and the taker the escrow's, and nothing else changes.  The vault was
      held by the escrow, which authorised both of its movements. */
  lemma TakeSettleEffects(l: Ledger, metas: seq<Meta>, a: TakeAccounts, e: Escrow, signers: set<Address>)
    requires |metas| == TAKE_SLOTS
    requires a == TakeAccounts(metas[0], metas[1], metas[2], metas[3], metas[4], metas[5],
                               metas[6], metas[7], metas[8], metas[9], metas[10])
    requires AllDistinct(TakeParties(metas))
    requires TakeSettle(l, metas, a, e, signers).Ok?
    ensures var l' := TakeSettle(l, metas, a, e, signers).value;
      var taker, maker, escrow, vault, takerAtaA, takerAtaB, makerAtaB :=
        metas[0].key, metas[1].key, metas[2].key, metas[5].key, metas[6].key, metas[7].key, metas[8].key;
      && Get(l, vault).holding.Some? && Get(l, vault).holding.value.authority == escrow && escrow in signers
      && Amount(l', takerAtaA) == Amount(l, takerAtaA) + Amount(l, vault)
      && Amount(l', takerAtaB) == Amount(l, takerAtaB) - e.receive
      && Amount(l', makerAtaB) == Amount(l, makerAtaB) + e.receive
      && Get(l', vault) == EMPTY && Get(l', escrow) == EMPTY
      && Lamports(l', maker) == Lamports(l, maker) + Lamports(l, vault)
      && Lamports(l', taker) == Lamports(l, taker) + Lamports(l, escrow)
      && (forall x :: x !in TakeParties(metas) ==> Get(l', x) == Get(l, x))
  {
    var ps := TakeParties(metas);
    var taker, maker, escrow, vault, takerAtaA, takerAtaB, makerAtaB := ps[0], ps[1], ps[2], ps[3], ps[4], ps[5], ps[6];
    assert taker != maker && taker != escrow && taker != vault && taker != takerAtaA && taker != takerAtaB && taker != makerAtaB;
    assert maker != escrow && maker != vault && maker != takerAtaA && maker != takerAtaB && maker != makerAtaB;
    assert escrow != vault && escrow != takerAtaA && escrow != takerAtaB && escrow != makerAtaB;
    assert vault != takerAtaA && vault != takerAtaB && vault != makerAtaB;
    assert takerAtaA != takerAtaB && takerAtaA != makerAtaB && takerAtaB != makerAtaB;
    var amount := TokenAmountOf(vault, l).value;
    var l1 := TokenTransfer(l, signers, vault, takerAtaA, escrow, amount).value;
    var l2 := TokenCloseAccount(l1, signers, vault, maker, escrow).value;
    var l3 := TokenTransfer(l2, TxSigners(metas), takerAtaB, makerAtaB, taker, e.receive).value;
    assert Amount(l2, takerAtaA) == Amount(l, takerAtaA) + Amount(l, vault);
  }

  /** The intermediate states of a successful Take: the accounts and the
      ledger after setup, the authenticated record, and the signers the
      settlement runs with. */
  lemma TakeInstructionSteps(env: Env, l: Ledger, metas: seq<Meta>)
      returns (a: TakeAccounts, l1: Ledger, e: Escrow, signers: set<Address>)
    requires TakeInstruction(env, l, metas).Ok?
    ensures |metas| == TAKE_SLOTS
    ensures TakeTryFrom(env, l, metas) == Ok((a, l1))
    ensures a == TakeAccounts(metas[0], metas[1], metas[2], metas[3], metas[4], metas[5],
                              metas[6], metas[7], metas[8], metas[9], metas[10])
    ensures LoadEscrow(Get(l1, a.escrow.key)) == Ok(e)
    ensures env.createPda(EscrowSignerSeeds(a.maker.key, e.seed, e.bump), PROGRAM_ID) == Some(a.escrow.key)
    ensures TakeSettle(l1, metas, a, e, signers) == TakeInstruction(env, l, metas)
  {
    var r := TakeTryFrom(env, l, metas).value;
    a, l1 := r.0, r.1;
    var (e', seeds) := Authenticate(env, l1, a).value;
    e := e';
    signers := CpiSigners(env, metas, Some(seeds)).value;
  }

  /** Setup touches only the taker and the two accounts it may create, and
      keeps every token balance; so the settlement's effects, measured against
      the ledger after setup, hold against the ledger before it, except that
      the taker's lamports become a lower bound. */
  lemma TakeSetupBridge(l: Ledger, l1: Ledger, l': Ledger, metas: seq<Meta>, receive: u64)
    requires |metas| == TAKE_SLOTS && AllDistinct(TakeParties(metas))
    requires forall x :: x != metas[0].key && x != metas[6].key && x != metas[8].key ==> Get(l1, x) == Get(l, x)
    requires forall x :: Amount(l1, x) == Amount(l, x)
    requires var taker, maker, escrow, vault, takerAtaA, takerAtaB, makerAtaB :=
        metas[0].key, metas[1].key, metas[2].key, metas[5].key, metas[6].key, metas[7].key, metas[8].key;
      && Amount(l', takerAtaA) == Amount(l1, takerAtaA) + Amount(l1, vault)
      && Amount(l', takerAtaB) == Amount(l1, takerAtaB) - receive
      && Amount(l', makerAtaB) == Amount(l1, makerAtaB) + receive
      && Lamports(l', maker) == Lamports(l1, maker) + Lamports(l1, vault)
      && Lamports(l', taker) == Lamports(l1, taker) + Lamports(l1, escrow)
      && (forall x :: x !in TakeParties(metas) ==> Get(l', x) == Get(l1, x))
    ensures var taker, maker, escrow, vault, takerAtaA, takerAtaB, makerAtaB :=
        metas[0].key, metas[1].key, metas[2].key, metas[5].key, metas[6].key, metas[7].key, metas[8].key;
      && Get(l1, escrow) == Get(l, escrow)
      && Amount(l', takerAtaA) == Amount(l, takerAtaA) + Amount(l, vault)
      && Amount(l', takerAtaB) == Amount(l, takerAtaB) - receive
      && Amount(l', makerAtaB) == Amount(l, makerAtaB) + receive
      && Lamports(l', maker) == Lamports(l, maker) + Lamports(l, vault)
      && Lamports(l', taker) >= Lamports(l, escrow)
      && (forall x :: x !in TakeParties(metas) ==> Get(l', x) == Get(l, x))
  {
    var ps := TakeParties(metas);
    assert ps[0] != ps[1] && ps[0] != ps[2] && ps[0] != ps[3];
    assert ps[4] != ps[1] && ps[4] != ps[2] && ps[4] != ps[3];
    assert ps[6] != ps[1] && ps[6] != ps[2] && ps[6] != ps[3];
    assert Get(l1, ps[1]) == Get(l, ps[1]) && Get(l1, ps[2]) == Get(l, ps[2]) && Get(l1, ps[3]) == Get(l, ps[3]);
    forall x | x !in ps ensures Get(l', x) == Get(l, x) {
      assert x != ps[0] && x != ps[4] && x != ps[6];
    }
  }

  /** A successful Take between seven distinct accounts, on a ledger where
      only program-owned accounts carry holdings: the escrow it settled
      carried a record whose signer seeds, built from the supplied maker,
      derive the escrow's own address; every balance moves as the settlement
      states, measured against the ledger before the instruction; the taker
      receives at least the escrow's lamports (creating the maker's mint-B
      account may first cost the taker rent); and nothing outside the seven
      accounts changes. */
  lemma TakeEffects(env: Env, l: Ledger, metas: seq<Meta>)
    requires |metas| == TAKE_SLOTS && AllDistinct(TakeParties(metas))
    requires HoldingsOwned(l)
    requires TakeInstruction(env, l, metas).Ok?
    ensures var l' := TakeInstruction(env, l, metas).value;
      var taker, maker, escrow, vault, takerAtaA, takerAtaB, makerAtaB :=
        metas[0].key, metas[1].key, metas[2].key, metas[5].key, metas[6].key, metas[7].key, metas[8].key;
      && LoadEscrow(Get(l, escrow)).Ok?
      && var e := LoadEscrow(Get(l, escrow)).value;
      && env.createPda(EscrowSignerSeeds(maker, e.seed, e.bump), PROGRAM_ID) == Some(escrow)
      && Amount(l', takerAtaA) == Amount(l, takerAtaA) + Amount(l, vault)
      && Amount(l', takerAtaB) == Amount(l, takerAtaB) - e.receive
      && Amount(l', makerAtaB) == Amount(l, makerAtaB) + e.receive
      && Get(l', vault) == EMPTY && Get(l', escrow) == EMPTY
      && Lamports(l', maker) == Lamports(l, maker) + Lamports(l, vault)
      && Lamports(l', taker) >= Lamports(l, escrow)
      && (forall x :: x !in TakeParties(metas) ==> Get(l', x) == Get(l, x))
  {
    var a, l1, e, signers := TakeInstructionSteps(env, l, metas);
    TakeSettleEffects(l1, metas, a, e, signers);
    TakeSetupBridge(l, l1, TakeInstruction(env, l, metas).value, metas, e.receive);
  }

  /** An escrow whose recorded seed and bump, with the supplied maker, derive
      an address other than the supplied escrow is refused with
      InvalidAccountOwner before any token moves. */
  lemma TakeRejectsForeignEscrow(env: Env, l: Ledger, metas: seq<Meta>, a: TakeAccounts)
    requires LoadEscrow(Get(l, a.escrow.key)).Ok?
    requires var e := LoadEscrow(Get(l, a.escrow.key)).value;
      var derived := env.createPda(EscrowSignerSeeds(a.maker.key, e.seed, e.bump), PROGRAM_ID);
      derived.Some? && derived.value != a.escrow.key
    ensures TakeProcess(env, l, metas, a) == Err(InvalidAccountOwner)
  {
  }

  /** When the maker already holds their associated mint-B account, Take fails:
      the creation step checks the account as the taker's, not the maker's,
      so it tries to create the existing account and is refused. */
  lemma TakeFailsWhenMakerAccountExists(env: Env, l: Ledger, metas: seq<Meta>)
    requires AtaDerivationInjective(env)
    requires |metas| == TAKE_SLOTS
    requires metas[0].key != metas[1].key
    requires metas[8].key != metas[0].key && metas[8].key != metas[6].key
    requires metas[8].key == AtaAddress(env, metas[1].key, metas[10].key, metas[4].key)
    requires Get(l, metas[8].key).owner != SYSTEM_PROGRAM
    ensures TakeInstruction(env, l, metas).Err?
  {
    if TakeAccountsFrom(env, l, metas).Ok? {
      var a := TakeAccountsFrom(env, l, metas).value;
      var r1 := AtaInitIfNeeded(env, l, metas, a.takerAtaA, a.mintA, a.taker, a.taker, a.systemProgram, a.tokenProgram);
      if r1.Ok? {
        AtaInitIfNeededRejectsExistingForOtherOwner(env, r1.value, metas, a.makerAtaB, a.mintB, a.taker, a.maker,
                                                    a.systemProgram, a.tokenProgram);
      }
    }
  }

  /** The guard lets a self-payment through: when the maker's mint-B slot
      names the taker's own mint-B account, which validation has already
      accepted as the taker's associated account, the second creation step
      passes its payer-based check and does nothing, so Take's setup succeeds
      whenever creating the taker's mint-A account does. */
  lemma TakeAdmitsSelfPayment(env: Env, l: Ledger, metas: seq<Meta>)
    requires |metas| == TAKE_SLOTS && metas[8] == metas[7]
    requires AllDistinct([metas[0].key, metas[6].key, metas[7].key])
    requires TakeAccountsFrom(env, l, metas).Ok?
    ensures var a := TakeAccountsFrom(env, l, metas).value;
      var first := AtaInitIfNeeded(env, l, metas, a.takerAtaA, a.mintA, a.taker, a.taker, a.systemProgram, a.tokenProgram);
      first.Ok? ==> TakeTryFrom(env, l, metas) == Ok((a, first.value))
  {
    var a := TakeAccountsFrom(env, l, metas).value;
    var first := AtaInitIfNeeded(env, l, metas, a.takerAtaA, a.mintA, a.taker, a.taker, a.systemProgram, a.tokenProgram);
    var ps := [metas[0].key, metas[6].key, metas[7].key];
    assert ps[0] != ps[2] && ps[1] != ps[2];
    if first.Ok? {
      assert Get(first.value, a.takerAtaB.key) == Get(l, a.takerAtaB.key);
      assert AtaCheckForPayer(env, first.value, a.makerAtaB, a.mintB, a.taker, a.tokenProgram).Pass?;
    }
  }

  /** A settlement whose maker's mint-B account is the taker's mint-B account
      pays `receive` from that account to itself: only the vault's balance
      moves, to the taker's mint-A account. */
  lemma TakeSettleSelfPayment(l: Ledger, metas: seq<Meta>, a: TakeAccounts, e: Escrow, signers: set<Address>)
    requires |metas| == TAKE_SLOTS && metas[8].key == metas[7].key
    requires a == TakeAccounts(metas[0], metas[1], metas[2], metas[3], metas[4], metas[5],
                               metas[6], metas[7], metas[8], metas[9], metas[10])
    requires AllDistinct([metas[0].key, metas[1].key, metas[2].key, metas[5].key, metas[6].key, metas[7].key])
    requires TakeSettle(l, metas, a, e, signers).Ok?
    ensures var l' := TakeSettle(l, metas, a, e, signers).value;
      && Amount(l', metas[6].key) == Amount(l, metas[6].key) + Amount(l, metas[5].key)
      && Get(l', metas[5].key) == EMPTY
      && forall x :: x != metas[6].key && x != metas[5].key && x != metas[2].key ==> Amount(l', x) == Amount(l, x)
  {
    var ps := [metas[0].key, metas[1].key, metas[2].key, metas[5].key, metas[6].key, metas[7].key];
    var taker, maker, escrow, vault, takerAtaA, takerAtaB := ps[0], ps[1], ps[2], ps[3], ps[4], ps[5];
    assert taker != maker && taker != escrow && taker != vault && taker != takerAtaA && taker != takerAtaB;
    assert maker != escrow && maker != vault && maker != takerAtaA && maker != takerAtaB;
    assert escrow != vault && escrow != takerAtaA && escrow != takerAtaB;
    assert vault != takerAtaA && vault != takerAtaB && takerAtaA != takerAtaB;
    var amount := TokenAmountOf(vault, l).value;
    var l1 := TokenTransfer(l, signers, vault, takerAtaA, escrow, amount).value;
    var l2 := TokenCloseAccount(l1, signers, vault, maker, escrow).value;
    assert Amount(l2, takerAtaA) == Amount(l, takerAtaA) + Amount(l, vault);
    assert forall x :: x != takerAtaA && x != vault ==> Amount(l2, x) == Amount(l, x);
    var l3 := TokenTransfer(l2, TxSigners(metas), takerAtaB, takerAtaB, taker, e.receive).value;
    assert l3 == l2;
  }

  /** A successful Take whose maker's mint-B slot names the taker's own mint-B
      account moves the vault's balance to the taker and leaves every other
      balance — in particular every account of the maker — as it was: the
      maker is not paid.  (The escrow itself holds no tokens.) */
  lemma TakeSelfPayment(env: Env, l: Ledger, metas: seq<Meta>)
    requires |metas| == TAKE_SLOTS && metas[8].key == metas[7].key
    requires AllDistinct([metas[0].key, metas[1].key, metas[2].key, metas[5].key, metas[6].key, metas[7].key])
    requires HoldingsOwned(l)
    requires TakeInstruction(env, l, metas).Ok?
    ensures var l' := TakeInstruction(env, l, metas).value;
      && Amount(l', metas[6].key) == Amount(l, metas[6].key) + Amount(l, metas[5].key)
      && Get(l', metas[5].key) == EMPTY
      && forall x :: x != metas[6].key && x != metas[5].key && x != metas[2].key ==> Amount(l', x) == Amount(l, x)
  {
    var ps := [metas[0].key, metas[1].key, metas[2].key, metas[5].key, metas[6].key, metas[7].key];
    assert ps[3] != ps[0] && ps[3] != ps[4] && ps[3] != ps[5];
    var (a, l0) := TakeTryFrom(env, l, metas).value;
    assert Get(l0, metas[5].key) == Get(l, metas[5].key);
    var (e, seeds) := Authenticate(env, l0, a).value;
    var signers := CpiSigners(env, metas, Some(seeds)).value;
    var l' := TakeSettle(l0, metas, a, e, signers).value;
    assert TakeInstruction(env, l, metas) == Ok(l');
    TakeSettleSelfPayment(l0, metas, a, e, signers);
  }

  // ----- the evidently intended Take -----

  /** Take's setup with the owner-based creation step: the taker's mint-A
      account must end up at the taker's associated address and the maker's
      mint-B account at the maker's. */
  function TakeTryFromCorrected(env: Env, l: Ledger, metas: seq<Meta>): (r: Result<(TakeAccounts, Ledger)>)
    ensures TakeAccountsFrom(env, l, metas).Err? ==> r == Err(TakeAccountsFrom(env, l, metas).error)
    ensures r.Ok? ==> TakeAccountsFrom(env, l, metas) == Ok(r.value.0)
    ensures r.Ok? ==>
      && metas[6].key == AtaAddress(env, metas[0].key, metas[10].key, metas[3].key)
      && metas[8].key == AtaAddress(env, metas[1].key, metas[10].key, metas[4].key)
    ensures r.Ok? ==> RecordsKept(l, r.value.1)
    ensures r.Ok? ==> forall x :: x != metas[0].key && x != metas[6].key && x != metas[8].key ==>
      Get(r.value.1, x) == Get(l, x)
    ensures r.Ok? && HoldingsOwned(l) ==> HoldingsOwned(r.value.1) && forall x :: Amount(r.value.1, x) == Amount(l, x)
  {
    var a :- TakeAccountsFrom(env, l, metas);
    var l1 :- AtaInitIfNeededForOwner(env, l, metas, a.takerAtaA, a.mintA, a.taker, a.taker, a.systemProgram, a.tokenProgram);
    var l2 :- AtaInitIfNeededForOwner(env, l1, metas, a.makerAtaB, a.mintB, a.taker, a.maker, a.systemProgram, a.tokenProgram);
    RecordsKeptTrans(l, l1, l2);
    Ok((a, l2))
  }

  /** Take's processing with the supplied mints bound to the record: after
      authentication, mints other than the recorded ones are refused with
      InvalidAccountData before any token moves. */
  function TakeProcessCorrected(env: Env, l: Ledger, metas: seq<Meta>, a: TakeAccounts): (r: Result<Ledger>)
    ensures Authenticate(env, l, a).Err? ==> r == Err(Authenticate(env, l, a).error)
    ensures Authenticate(env, l, a).Ok? ==>
      var e := Authenticate(env, l, a).value.0;
      (a.mintA.key != e.mintA || a.mintB.key != e.mintB) ==> r == Err(InvalidAccountData)
    ensures r.Ok? ==> Authenticate(env, l, a).Ok? && RecordsKept(l, r.value)
    ensures r.Ok? ==> Get(r.value, a.escrow.key) == EMPTY
  {
    var (e, seeds) :- Authenticate(env, l, a);
    if a.mintA.key != e.mintA || a.mintB.key != e.mintB then Err(InvalidAccountData)
    else
      var signers :- CpiSigners(env, metas, Some(seeds));
      TakeSettle(l, metas, a, e, signers)
  }

  /** Take as the corrected program dispatches it. */
  function TakeInstructionCorrected(env: Env, l: Ledger, metas: seq<Meta>): (r: Result<Ledger>)
    ensures TakeAccountsFrom(env, l, metas).Err? ==> r == Err(TakeAccountsFrom(env, l, metas).error)
    ensures r.Ok? ==> RecordsKept(l, r.value)
    ensures r.Ok? ==> |metas| == TAKE_SLOTS && Get(r.value, metas[2].key) == EMPTY
  {
    var (a, l1) :- TakeTryFromCorrected(env, l, metas);
    var r :- TakeProcessCorrected(env, l1, metas, a);
    RecordsKeptTrans(l, l1, r);
    Ok(r)
  }

  /** The corrected Take refuses a maker's mint-B slot that names the taker's
      own mint-B account, as long as taker and maker differ. */
  lemma TakeCorrectedRefusesSelfPayment(env: Env, l: Ledger, metas: seq<Meta>)
    requires AtaDerivationInjective(env)
    requires |metas| == TAKE_SLOTS && metas[8].key == metas[7].key && metas[0].key != metas[1].key
    ensures TakeInstructionCorrected(env, l, metas).Err?
  {
    AtaAddressInjective(env, metas[0].key, metas[1].key, metas[10].key, metas[4].key);
  }

  /** A successful corrected Take between seven distinct accounts pays the
      maker: exactly `receive` reaches the maker's associated account for the
      RECORDED mint B, the taker's associated account for the recorded mint A
      receives the vault's balance, and the escrow's address is the one its
      recorded seed and bump derive with the supplied maker. */
  lemma TakeCorrectedPaysMaker(env: Env, l: Ledger, metas: seq<Meta>)
    requires |metas| == TAKE_SLOTS && AllDistinct(TakeParties(metas))
    requires HoldingsOwned(l)
    requires TakeInstructionCorrected(env, l, metas).Ok?
    ensures var l' := TakeInstructionCorrected(env, l, metas).value;
      var taker, maker, escrow, vault, takerAtaA, takerAtaB, makerAtaB, tokenProgram :=
        metas[0].key, metas[1].key, metas[2].key, metas[5].key, metas[6].key, metas[7].key, metas[8].key, metas[10].key;
      && LoadEscrow(Get(l, escrow)).Ok?
      && var e := LoadEscrow(Get(l, escrow)).value;
      && env.createPda(EscrowSignerSeeds(maker, e.seed, e.bump), PROGRAM_ID) == Some(escrow)
      && makerAtaB == AtaAddress(env, maker, tokenProgram, e.mintB)
      && takerAtaA == AtaAddress(env, taker, tokenProgram, e.mintA)
      && Amount(l', makerAtaB) == Amount(l, makerAtaB) + e.receive
      && Amount(l', takerAtaA) == Amount(l, takerAtaA) + Amount(l, vault)
      && Get(l', vault) == EMPTY && Get(l', escrow) == EMPTY
  {
    var (a, l1) := TakeTryFromCorrected(env, l, metas).value;
    var ps := TakeParties(metas);
    var taker, maker, escrow, vault, takerAtaA, takerAtaB, makerAtaB := ps[0], ps[1], ps[2], ps[3], ps[4], ps[5], ps[6];
    assert taker != maker && taker != escrow && taker != vault;
    assert takerAtaA != maker && takerAtaA != escrow && takerAtaA != vault;
    assert makerAtaB != maker && makerAtaB != escrow && makerAtaB != vault;
    assert Get(l1, escrow) == Get(l, escrow) && Get(l1, vault) == Get(l, vault);
    var (e, seeds) := Authenticate(env, l1, a).value;
    var signers := CpiSigners(env, metas, Some(seeds)).value;
    var l' := TakeSettle(l1, metas, a, e, signers).value;
    assert TakeInstructionCorrected(env, l, metas) == Ok(l');
    TakeSettleEffects(l1, metas, a, e, signers);
  }

  /** The ledger in which the record at `k` names other mints. */
  function Relabel(l: Ledger, k: Address, mintA: Address, mintB: Address): Ledger
    requires Get(l, k).record.Some?
  {
    Put(l, k, Get(l, k).(record := Some(Get(l, k).record.value.(mintA := mintA, mintB := mintB))))
  }

  /** The two ledgers differ at most in the record held at `k`. */
  ghost predicate OnlyRecordDiffers(l: Ledger, l2: Ledger, k: Address) {
    && l2.Keys == l.Keys
    && (forall x :: x != k ==> Get(l2, x) == Get(l, x))
    && Get(l2, k) == Get(l, k).(record := Get(l2, k).record)
  }

  /** The token operations never read records, so they behave alike on ledgers
      that differ only in one record and keep that difference. */
  lemma TokenTransferIgnoresRecord(l: Ledger, l2: Ledger, k: Address, signers: set<Address>,
                                   from: Address, to: Address, authority: Address, amount: u64)
    requires OnlyRecordDiffers(l, l2, k)
    ensures TokenTransfer(l2, signers, from, to, authority, amount).Ok? == TokenTransfer(l, signers, from, to, authority, amount).Ok?
    ensures TokenTransfer(l, signers, from, to, authority, amount).Err? ==>
      TokenTransfer(l2, signers, from, to, authority, amount) == TokenTransfer(l, signers, from, to, authority, amount)
    ensures TokenTransfer(l, signers, from, to, authority, amount).Ok? ==>
      OnlyRecordDiffers(TokenTransfer(l, signers, from, to, authority, amount).value,
                        TokenTransfer(l2, signers, from, to, authority, amount).value, k)
  {
    assert Get(l2, from).holding == Get(l, from).holding && Get(l2, to).holding == Get(l, to).holding;
  }

  lemma TokenCloseAccountIgnoresRecord(l: Ledger, l2: Ledger, k: Address, signers: set<Address>,
                                       account: Address, destination: Address, authority: Address)
    requires OnlyRecordDiffers(l, l2, k)
    ensures TokenCloseAccount(l2, signers, account, destination, authority).Ok? ==
            TokenCloseAccount(l, signers, account, destination, authority).Ok?
    ensures TokenCloseAccount(l, signers, account, destination, authority).Err? ==>
      TokenCloseAccount(l2, signers, account, destination, authority) == TokenCloseAccount(l, signers, account, destination, authority)
    ensures TokenCloseAccount(l, signers, account, destination, authority).Ok? ==>
      OnlyRecordDiffers(TokenCloseAccount(l, signers, account, destination, authority).value,
                        TokenCloseAccount(l2, signers, account, destination, authority).value, k)
  {
    assert Get(l2, account).holding == Get(l, account).holding && Get(l2, account).lamports == Get(l, account).lamports;
  }

  /** Ledgers that agree on every address and every key are equal. */
  lemma LedgerExt(l: Ledger, l2: Ledger)
    requires l.Keys == l2.Keys && forall x :: Get(l, x) == Get(l2, x)
    ensures l == l2
  {
    forall x | x in l.Keys ensures l[x] == l2[x] {
      assert Get(l, x) == Get(l2, x);
    }
  }

  /** Decommissioning the account whose record differs yields the same ledger. */
  lemma ProgramAccountCloseIgnoresRecord(l: Ledger, l2: Ledger, k: Address, destination: Address)
    requires OnlyRecordDiffers(l, l2, k)
    ensures ProgramAccountClose(l2, k, destination) == ProgramAccountClose(l, k, destination)
  {
    if |Get(l, k).data| > 0 {
      var t := Tombstone(Get(l, k));
      assert Tombstone(Get(l2, k)) == t;
      var p1, p2 := Put(l, k, t), Put(l2, k, t);
      LedgerExt(p1, p2);
    }
  }

  /** The first half of settlement — emptying and closing the vault — reads
      no record and keeps the difference. */
  lemma SettleHeadIgnoresRecord(l: Ledger, l2: Ledger, a: TakeAccounts, signers: set<Address>, amount: u64)
    requires OnlyRecordDiffers(l, l2, a.escrow.key)
    ensures var t1 := TokenTransfer(l, signers, a.vault.key, a.takerAtaA.key, a.escrow.key, amount);
      var t2 := TokenTransfer(l2, signers, a.vault.key, a.takerAtaA.key, a.escrow.key, amount);
      && (t1.Err? ==> t2 == t1)
      && (t1.Ok? ==> t2.Ok?)
      && (t1.Ok? ==>
        var c1 := TokenCloseAccount(t1.value, signers, a.vault.key, a.maker.key, a.escrow.key);
        var c2 := TokenCloseAccount(t2.value, signers, a.vault.key, a.maker.key, a.escrow.key);
        && (c1.Err? ==> c2 == c1)
        && (c1.Ok? ==> c2.Ok? && OnlyRecordDiffers(c1.value, c2.value, a.escrow.key)))
  {
    var k := a.escrow.key;
    TokenTransferIgnoresRecord(l, l2, k, signers, a.vault.key, a.takerAtaA.key, k, amount);
    var t1 := TokenTransfer(l, signers, a.vault.key, a.takerAtaA.key, k, amount);
    if t1.Ok? {
      var t2 := TokenTransfer(l2, signers, a.vault.key, a.takerAtaA.key, k, amount);
      TokenCloseAccountIgnoresRecord(t1.value, t2.value, k, signers, a.vault.key, a.maker.key, k);
    }
  }

  /** The second half of settlement — the taker's payment and the escrow's
      decommissioning — reads no record. */
  lemma SettleTailIgnoresRecord(l: Ledger, l2: Ledger, metas: seq<Meta>, a: TakeAccounts, receive: u64)
    requires OnlyRecordDiffers(l, l2, a.escrow.key)
    ensures var pay1 := TokenTransfer(l, TxSigners(metas), a.takerAtaB.key, a.makerAtaB.key, a.taker.key, receive);
      var pay2 := TokenTransfer(l2, TxSigners(metas), a.takerAtaB.key, a.makerAtaB.key, a.taker.key, receive);
      && (pay1.Err? ==> pay2 == pay1)
      && (pay1.Ok? ==> pay2.Ok? && ProgramAccountClose(pay2.value, a.escrow.key, a.taker.key) ==
                       ProgramAccountClose(pay1.value, a.escrow.key, a.taker.key))
  {
    var k := a.escrow.key;
    TokenTransferIgnoresRecord(l, l2, k, TxSigners(metas), a.takerAtaB.key, a.makerAtaB.key, a.taker.key, receive);
    var pay1 := TokenTransfer(l, TxSigners(metas), a.takerAtaB.key, a.makerAtaB.key, a.taker.key, receive);
    if pay1.Ok? {
      var pay2 := TokenTransfer(l2, TxSigners(metas), a.takerAtaB.key, a.makerAtaB.key, a.taker.key, receive);
      ProgramAccountCloseIgnoresRecord(pay1.value, pay2.value, k, a.taker.key);
    }
  }

  /** Settlement reads only the record's `receive`: on ledgers differing only
      in the escrow's record, with records agreeing on `receive`, it yields
      the same outcome. */
  lemma TakeSettleIgnoresRecord(l: Ledger, l2: Ledger, metas: seq<Meta>, a: TakeAccounts, e: Escrow, e2: Escrow,
                                signers: set<Address>)
    requires OnlyRecordDiffers(l, l2, a.escrow.key) && e.receive == e2.receive
    ensures TakeSettle(l2, metas, a, e2, signers) == TakeSettle(l, metas, a, e, signers)
  {
    assert TokenAmountOf(a.vault.key, l2) == TokenAmountOf(a.vault.key, l);
    if TokenAmountOf(a.vault.key, l).Ok? {
      var amount := TokenAmountOf(a.vault.key, l).value;
      SettleHeadIgnoresRecord(l, l2, a, signers, amount);
      var t1 := TokenTransfer(l, signers, a.vault.key, a.takerAtaA.key, a.escrow.key, amount);
      var t2 := TokenTransfer(l2, signers, a.vault.key, a.takerAtaA.key, a.escrow.key, amount);
      if t1.Ok? {
        var c1 := TokenCloseAccount(t1.value, signers, a.vault.key, a.maker.key, a.escrow.key);
        var c2 := TokenCloseAccount(t2.value, signers, a.vault.key, a.maker.key, a.escrow.key);
        if c1.Ok? {
          SettleTailIgnoresRecord(c1.value, c2.value, metas, a, e.receive);
        }
      }
    }
  }

  /** As written, Take's processing never reads the recorded mints:
      relabelling the escrow's record with any other mints leaves the outcome
      exactly as it was. */
  lemma TakeProcessIgnoresRecordedMints(env: Env, l: Ledger, metas: seq<Meta>, a: TakeAccounts,
                                        mintA: Address, mintB: Address)
    requires Get(l, a.escrow.key).record.Some?
    ensures TakeProcess(env, Relabel(l, a.escrow.key, mintA, mintB), metas, a) == TakeProcess(env, l, metas, a)
  {
    var k := a.escrow.key;
    var l2 := Relabel(l, k, mintA, mintB);
    assert OnlyRecordDiffers(l, l2, k);
    if LoadEscrow(Get(l, k)).Ok? {
      var e := LoadEscrow(Get(l, k)).value;
      var e2 := LoadEscrow(Get(l2, k)).value;
      assert e2 == e.(mintA := mintA, mintB := mintB);
      var seeds := EscrowSignerSeeds(a.maker.key, e.seed, e.bump);
      if Authenticate(env, l, a).Ok? {
        assert Authenticate(env, l2, a) == Ok((e2, seeds));
        if CpiSigners(env, metas, Some(seeds)).Ok? {
          TakeSettleIgnoresRecord(l, l2, metas, a, e, e2, CpiSigners(env, metas, Some(seeds)).value);
        }
      }
    }
  }

  /** The input that shows the missing mint check: take any successful Take
      processing and relabel its escrow's recorded mint B as some other mint.
      As written, Take still settles — the maker is paid in the supplied mint,
      not the one the record names — while the corrected processing refuses
      the mismatch. */
  lemma TakeSettlesInUnrecordedMint(env: Env, l: Ledger, metas: seq<Meta>, a: TakeAccounts, mintB: Address)
    requires TakeProcess(env, l, metas, a).Ok? && mintB != a.mintB.key
    ensures Get(l, a.escrow.key).record.Some?
    ensures var l2 := Relabel(l, a.escrow.key, Get(l, a.escrow.key).record.value.mintA, mintB);
      && LoadEscrow(Get(l2, a.escrow.key)).Ok?
      && LoadEscrow(Get(l2, a.escrow.key)).value.mintB != a.mintB.key
      && TakeProcess(env, l2, metas, a).Ok?
      && TakeProcessCorrected(env, l2, metas, a) == Err(InvalidAccountData)
  {
    var e := LoadEscrow(Get(l, a.escrow.key)).value;
    TakeProcessIgnoresRecordedMints(env, l, metas, a, e.mintA, mintB);
  }
}

=== FILE: types.dfy ===
/** Basic vocabulary of the escrow program: fixed-width integers, addresses,
    the error codes the program and its collaborators report, and the
    failure-compatible result types used with `:-`. */
module Types {

  /** An unsigned byte. */
  type u8 = x: int | 0 <= x < 0x100

  /** An unsigned 64-bit integer. */
  type u64 = x: int | 0 <= x < 0x1_0000_0000_0000_0000

  const U64_MAX: int := 0xFFFF_FFFF_FFFF_FFFF

  /** A 32-byte ledger address, kept abstract: two addresses are the same
      exactly when their identifiers are. */
  datatype Address = Address(id: nat)

  /** The base system program; the all-zero address. */
  const SYSTEM_PROGRAM := Address(0)
  /** The classic token program. */
  const TOKEN_PROGRAM := Address(1)
  /** The extended (Token-2022) token program. */
  const TOKEN_2022_PROGRAM := Address(2)
  /** The associated-token-account program. */
  const ATA_PROGRAM := Address(3)
  /** This escrow program's own id. */
  const PROGRAM_ID := Address(4)

  /** Errors reported by the program and by the host or collaborator programs
      it calls.  `Custom` carries a collaborator-specific code. */
  datatype Error =
    | MissingRequiredSignature
    | IllegalOwner
    | InvalidAccountData
    | InvalidAccountOwner
    | InvalidArgument
    | AccountAlreadyInitialized
    | NotEnoughAccountKeys
    | InvalidInstructionData
    | InvalidSeeds
    | IncorrectProgramId
    | Custom(code: nat)
    /** An aborting panic inside the program (an out-of-range index). */
    | Abort

  // Collaborator error codes (system program and token program).
  const SYSTEM_ACCOUNT_ALREADY_IN_USE: nat := 0
  const SYSTEM_INSUFFICIENT_LAMPORTS: nat := 1
  const TOKEN_INSUFFICIENT_FUNDS: nat := 1
  const TOKEN_INVALID_MINT: nat := 2
  const TOKEN_MINT_MISMATCH: nat := 3
  const TOKEN_OWNER_MISMATCH: nat := 4
  const TOKEN_UNINITIALIZED_STATE: nat := 9
  const TOKEN_NON_NATIVE_HAS_BALANCE: nat := 11
  const TOKEN_OVERFLOW: nat := 14

  /** A value or the error that stopped its computation. */
  datatype Result<T> = Ok(value: T) | Err(error: Error) {
    predicate IsFailure() { Err? }

    function PropagateFailure<U>(): Result<U>
      requires Err?
    {
      Err(error)
    }

    function Extract(): T
      requires Ok?
    {
      value
    }
  }

  /** The outcome of a check that produces no value. */
  datatype Outcome = Pass | Fail(error: Error) {
    predicate IsFailure() { Fail? }

    function PropagateFailure<U>(): Result<U>
      requires Fail?
    {
      Err(error)
    }
  }

  datatype Option<T> = None | Some(value: T)
}
